=== FILE: README.md ===
# Session, token refresh and password rules of the SETu mobile client

This project is a Dafny model of the authentication core of the SETu React Native client. It has three parts.

- **The session manager** (`context/authContext.tsx`). It holds the in-memory `authState`, a `token` plus a tri-state `authenticated`. It also covers the credential store (AsyncStorage keys `access_token`, `refresh_token` and `user`) and the operations the screens call:
  - startup load;
  - login and logout;
  - `getProfile`, with its opportunistic token adoption and its cached-user fallback;
  - the six requests that only normalise their inputs and post them.
- **The axios instance** (`api/api.tsx`):
  - a request interceptor that attaches the stored bearer token;
  - a response interceptor that answers a first 401 with one token refresh and a resubmission, or clears the stored credentials. The redirect to the login screen on that path goes through a router that is never registered, so it does nothing.
- **The password rules** (`utils/passwordValidation.ts`): the classifier that returns the first broken rule's message, and `PASSWORD_REGEX`.

Every operation is a total function. Its inputs are the state before it, the store, and what the server does. It returns the new state, the new store and the value its promise settles with.

- The server is an `Api.Exchange`, which fixes the server's reply to the original request, to the refresh call and to the resubmission.
- The store is a `map<string, string>`.
- Session operations send through `Api.Send`, so the interceptor's terminal clear is visible to them. `Api.Trace` records every request sent, every refresh token posted, and whether the terminal path cleared the credentials.

JavaScript values are a `Value` datatype. An object is an insertion-ordered property list in which the last binding wins. Truthiness, nullish reads (a `TypeError`), `?.` and `||` are modelled. `JSON.stringify` and `JSON.parse` are modelled by a stand-in codec (`JsonCodec`). It is proved to be a bijection between values other than `undefined` and the texts that parse. As in JavaScript, `undefined` has no serialisation.

Three properties of the code as written are proved:

- A refreshed access token is never stored.
- On resubmission the request interceptor replaces the refreshed token with the stored one (`Api.StaleTokenIsResent`, `AuthContextFacts.RefreshedTokenIsDropped`).
- The terminal clear removes the three stored credentials, and only those, but leaves `authenticated: true` in memory (`AuthContextFacts.TerminalClearLeavesStateBehind`).

## Model

| member | source | states |
|---|---|---|
| JsonCodec.SerializeRoundTrip | context/authContext.tsx:131 | a user that `JSON.stringify` turns into a string is given back exactly by `JSON.parse` |
| JsonCodec.Serialize | context/authContext.tsx:131 | `JSON.stringify` gives no string for `undefined` and a string for every other value, and that string parses back to the value |
| JsonCodec.Parse | context/authContext.tsx:254 | the stand-in reader for `JSON.parse` succeeds only on text that is the stand-in serialisation of the value it returns, and never returns `undefined` |
| JsonCodec.ValueExact | context/authContext.tsx:319 | the stand-in value reader accepts only text the stand-in serialiser writes: what it consumed is the encoding of the value it returned (induction over the input) |
| JsonCodec.ValueRoundTrip | context/authContext.tsx:319 | parsing the encoding of any value, followed by any text, yields the value and leaves the text unread (induction over values and property lists) |
| Text.Trim | context/authContext.tsx:66-69 | `trim` returns the slice between the leading and the trailing run of ECMAScript white space and line terminators, and the result starts and ends with neither |
| Text.ToLower | context/authContext.tsx:66 | lower-casing keeps the length and maps every character on its own, changing only ASCII capitals |
| Text.TrimIdempotent | context/authContext.tsx:66-69 | trimming a trimmed string changes nothing |
| Text.NormalizeEmail | context/authContext.tsx:66 | the normalised email is the lower-cased slice of the input between its leading and its trailing run of white space: only trimmable characters follow it, it has no trimmable character at either end and no ASCII capital, and each character is the lower-case form of the character at the same place after the leading white space |
| Text.NormalizeEmailIdempotent | context/authContext.tsx:66 | trimming and lower-casing an already normalised email changes nothing |
| PasswordValidation.ValidationMessage | utils/passwordValidation.ts:3-20 | the message is one of six fixed strings; it is empty exactly when the password has at least 8 characters and an upper-case letter, a lower-case letter, a digit and a special character; any shorter password gets the length message |
| PasswordValidation.TestClass | utils/passwordValidation.ts:7 | the scan reports true exactly when some character of the input is in the class |
| PasswordValidation.GetPasswordValidationMessage | utils/passwordValidation.ts:3-20 | the chain of early returns, one class scan per rule, answers empty exactly when every rule of the table passes, and otherwise the message of the first rule in table order that fails |
| PasswordValidation.EmptyIffAllRulesPass | utils/passwordValidation.ts:3-19 | the message is empty if and only if all five rules of the table pass |
| PasswordValidation.FirstFailingRuleWins | utils/passwordValidation.ts:4-18 | when rule k is the first rule, in the order length, upper, lower, digit, special, that fails, the message is rule k's |
| PasswordValidation.AppendKeepsValid | utils/passwordValidation.ts:4-18 | appending characters to a valid password keeps it valid |
| PasswordValidation.TildeIsNotSpecial | utils/passwordValidation.ts:16 | "Abcdefg1~" passes every rule but the special-character one |
| PasswordValidation.BacktickAndSpaceAreNotSpecial | utils/passwordValidation.ts:16 | backtick and space are not in the special set |
| PasswordValidation.RegexMatches | utils/passwordValidation.ts:1 | `PASSWORD_REGEX` matches exactly the strings of eight or more characters, none a line terminator, that contain a lower-case letter, an upper-case letter, a digit and a special character |
| PasswordValidation.RegexAgreesWithClassifier | utils/passwordValidation.ts:1-19 | on text without line terminators, `PASSWORD_REGEX` matches exactly when the message is empty |
| PasswordValidation.RegexMatchIsValid | utils/passwordValidation.ts:1-19 | every string the pattern matches gets the empty message |
| PasswordValidation.LineBreakSplitsRegexFromClassifier | utils/passwordValidation.ts:1-19 | "Abcdefg1!\n" is accepted by the classifier and rejected by the pattern, because `.` does not match a line break |
| Http.Dispatch | api/api.tsx:15-21 | a request resolves exactly when the server answers with a 2xx status; otherwise it rejects with its own config and the response, if one arrived |
| CredentialStore.SetItem | context/authContext.tsx:129-131 | a string value is stored under its key and no other key changes; any other value fails the write |
| CredentialStore.RemoveCredentials | context/authContext.tsx:217-221 | exactly the access token, the refresh token and the user are removed, and every other key keeps its value |
| CredentialStore.RemoveCredentialsIdempotent | context/authContext.tsx:215-226 | clearing the credentials twice is clearing them once |
| Api.AttachToken | api/api.tsx:26-32 | a request gets `Authorization: Bearer t` if and only if the stored access token `t` is non-empty; otherwise it is unchanged |
| Http.IsUnauthorized | api/api.tsx:44 | an error is unauthorised when it carries a response whose status is 401 |
| Http.UnauthorizedIffAnswered401 | api/api.tsx:44 | a send ends in an unauthorised error exactly when the server answered it with 401 |
| JsValue.Or | context/authContext.tsx:270 | `a || b` is `a` when `a` is truthy and `b` otherwise |
| Api.RefreshRequest | api/api.tsx:50-52 | the refresh call posts the refresh token under `refresh`, carries no bearer header, and is not marked `_retry` |
| Api.Terminal | api/api.tsx:61-68 | the terminal path removes the three credentials, marks the trace as cleared, and rejects with the error that led there |
| Api.Send | api/api.tsx:26-72 | one original request causes at most one refresh call and at most two sends, all carrying the same endpoint and body; the store changes only by the terminal clear, which always ends in a rejection |
| Api.OnRejected | api/api.tsx:42-72 | only a 401 on an unretried request leads to a refresh; the resubmission is marked `_retry` and keeps endpoint and body; a resolved outcome comes from the one resubmission |
| Api.PassThrough | api/api.tsx:44-71 | a non-401 error, or a 401 on a retried request, rejects with the original error, with no refresh and no store change |
| Api.MissingRefreshToken | api/api.tsx:47-68 | with no stored refresh token, no refresh call is made, the credentials are removed, and the rejection is "No refresh token available" |
| Api.RefreshRefused | api/api.tsx:50-68 | a failed refresh call rejects with the refresh error; a refresh response without `access` rejects with "No access token in refresh response"; either way the refresh token was posted once and the credentials are removed |
| Api.RefreshGranted | api/api.tsx:26-59 | a granted refresh resubmits once, marked `_retry`, and returns the resubmission's outcome unchanged; the store is untouched; the bearer header is the stored token when there is one, else the granted token |
| Api.StaleTokenIsResent | api/api.tsx:54-59 | stored "A0" gets a 401, refresh "R1" grants "A2", and still the resubmission carries "Bearer A0" and the store keeps "A0" |
| AuthContext.Stringified | context/authContext.tsx:131 | `JSON.stringify` yields a string for every value but `undefined`, and that string parses back to the value |
| AuthContext.LoadToken | context/authContext.tsx:41-61 | `loading` ends false; the state becomes signed in with `t` exactly when the stored access token `t` is non-empty; otherwise the state is left as it was; a failed read is rethrown |
| AuthContext.LoginBody | context/authContext.tsx:121-124 | the login body carries email and password exactly as given |
| AuthContext.OnLogin | context/authContext.tsx:117-146 | the login succeeds exactly when the call resolves with storable tokens and a user; on success the payload is returned unchanged, the store gains access, refresh and serialised user, and the state becomes signed in with the access token; a failed call rethrows its error and keeps the state and the interceptor's store |
| AuthContext.ClearAuthData | context/authContext.tsx:215-226 | the three credential keys are removed, nothing else changes, and a failed removal is swallowed |
| AuthContext.OnLogout | context/authContext.tsx:162-212 | logout always resolves and ends signed out; without a token it makes no call and reports a local logout; on API success it returns the response data if truthy, else a default; on API failure it reports the error; other keys keep their values |
| AuthContext.CachedOr | context/authContext.tsx:312-323 | the fallback returns the parsed cached user, throws a syntax error if the cache does not parse, and rethrows when there is no cache |
| AuthContext.AdoptTokens | context/authContext.tsx:269-291 | the token block is taken from `token` before `tokens`, and the new access token from `access_new` before `access`; a refresh token is written only when present, and otherwise the stored one keeps its value, as does the stored access token when there is no new one; the state becomes signed in only with a new access token; only the two token keys change |
| AuthContext.TokenBlock | context/authContext.tsx:269-270 | the token block is `token` when truthy, else `tokens`; it is truthy exactly when one of the two is |
| AuthContext.NewAccess | context/authContext.tsx:274 | the new access token is `access_new` when truthy, else `access`; it is truthy exactly when one of the two is |
| AuthContext.PickProfile | context/authContext.tsx:294-302 | the profile is `user` when truthy, else `data` when truthy, else the whole payload |
| AuthContext.GetProfile | context/authContext.tsx:245-324 | the whoami call is made exactly when an access token is stored, with that token as bearer; without it, or after a failure, the cached user is returned or the error rethrown; otherwise tokens are adopted and a truthy profile is cached and returned; keys other than the credentials never change |
| AuthContext.PostAndReturn | context/authContext.tsx:63-76 | a stateless request returns the response data or rethrows; the state is never touched, and the store changes only by the interceptor's terminal clear |
| AuthContext.RegisterBody | context/authContext.tsx:65-70 | the registration body carries the email trimmed and lower-cased and the other three fields trimmed |
| AuthContext.EmailBody | context/authContext.tsx:80-82 | the body carries the email trimmed and lower-cased |
| AuthContext.CodeBody | context/authContext.tsx:92-95 | the body carries the email trimmed and lower-cased and the code trimmed |
| AuthContext.ChangePasswordBody | context/authContext.tsx:230-234 | the body carries the new password, its confirmation and the reset token, each trimmed |
| AuthContext.OnRegister | context/authContext.tsx:63-76 | every request sent carries the normalised email and the trimmed username and passwords; the state is unchanged; it settles with the response data, or rejects with the call's error |
| AuthContext.OnForgetPassword | context/authContext.tsx:78-88 | every request sent carries the normalised email; the state is unchanged; it settles with the response data, or rejects with the call's error |
| AuthContext.OnVerifyEmail | context/authContext.tsx:90-102 | every request sent carries the normalised email and the trimmed code; the state is unchanged; it settles with the response data, or rejects with the call's error |
| AuthContext.OnResendOtp | context/authContext.tsx:104-114 | every request sent carries the normalised email; the state is unchanged; it settles with the response data, or rejects with the call's error |
| AuthContext.OnVerifyForgotPassword | context/authContext.tsx:148-159 | every request sent carries the normalised email and the trimmed code; the state is unchanged; it settles with the response data, or rejects with the call's error |
| AuthContext.OnChangePassword | context/authContext.tsx:228-241 | every request sent carries the trimmed new password, confirmation and reset token; the state is unchanged; it settles with the response data, or rejects with the call's error |
| AuthContextFacts.LogoutIdempotent | context/authContext.tsx:162-226 | after a logout whose read and removal succeed, a second such logout makes no call, reports a local logout, and changes neither state nor store |
| AuthContextFacts.LogoutKeepsResetToken | context/authContext.tsx:215-226 | logout keeps the stored reset token, whatever fails |
| AuthContextFacts.RestartRestoresLogin | context/authContext.tsx:129-138 | after any successful login with a non-empty access token, whether accepted at once or after a refresh and resubmission, the startup load reads back exactly the state the login set |
| AuthContextFacts.EmptyAccessIsNotRestored | context/authContext.tsx:135-138 | any successful login with an empty access token, whether accepted at once or after a refresh and resubmission, signs in, but a restart does not |
| AuthContextFacts.RestartAfterLogout | context/authContext.tsx:45-51 | logout sets `authenticated: false`, but a restart after it leaves a fresh provider at `null` |
| AuthContextFacts.LoginThenOfflineProfile | context/authContext.tsx:312-320 | after any successful login, whether accepted at once or after a refresh and resubmission, a profile request the server never answers returns the user the login cached |
| AuthContextFacts.ProfileCacheRoundTrip | context/authContext.tsx:305-320 | a profile that was fetched and cached is returned again when the server cannot be reached |
| AuthContextFacts.LoginRejectionReplaced | api/api.tsx:44-68 | a login answered with 401 while no refresh token is stored rejects with "No refresh token available", not the 401, and the stored credentials are gone |
| AuthContextFacts.TerminalClearLeavesStateBehind | api/api.tsx:61-68 | after the terminal clear a signed-in state stays signed in while the store holds no access token |
| AuthContextFacts.LoginDoesNotNormalise | context/authContext.tsx:121-124 | login sends " A@x " unchanged; password reset sends it as "a@x" |
| AuthContextFacts.ConsistentIsKept | context/authContext.tsx:31-37 | `authenticated: true` never appears without a token, across startup, login, logout, profile and the stateless requests |
| AuthContextFacts.RefreshedTokenIsDropped | api/api.tsx:54-59 | after a granted refresh, the profile request is resent with the stored token; if it goes unanswered, the store keeps the old token and the cached user is returned |

## Left out

- The React machinery (the context, `useState`, `useEffect`, the provider value) is left out. State and `loading` are explicit values.
- Logging (`console.*`) is left out.
- The redirect to the login screen on the terminal path (api/api.tsx:66) is not modelled. It runs only when `setGlobalRouter` has registered a router, and neither the root layout nor any screen calls it, so `globalRouter` stays `null` and nothing navigates. `Api.Trace` records only that the terminal path cleared the credentials. A router that throws would be swallowed anyway.
- URL strings and the base URL are left out; requests are identified by an `Endpoint` value. The refresh URL `${BASE_URL}api/token/refresh/` (api/api.tsx:50) lacks the `/` after the host, so the real refresh call goes to a malformed host. The model lets the `Exchange` decide the refresh reply freely.
- Concurrency is left out. Two requests that fail at once each run their own refresh; no deduplication exists in the source.
- Text.ToLower: only ASCII capitals are lowered. The locale rules of `toLocaleLowerCase` are not modelled.
- The model counts characters where JavaScript's `.length` counts UTF-16 code units, so the password length rule differs for characters outside the Basic Multilingual Plane.
- The JSON syntax itself is left out; `JsonCodec` is a stand-in, not RFC 8259 text. Its round trip is exact for every value. JSON's round trip is exact only for values with no `undefined` nested in an object and no repeated key, since `JSON.stringify({a: undefined})` is `"{}"`. The values the session code caches are server payloads, which arrive parsed from JSON and so have neither.
- JsonCodec.Parse: the stand-in reader accepts only the text its serialiser writes, while `JSON.parse` also accepts white space, `1.0`, escapes such as `\n` and repeated keys. The model only reads text the code itself stored under `user`, which is always such a serialisation.
- NaN, `-0`, fractional numbers, arrays and inherited properties of JavaScript values are not modelled. Numbers are integers.
- Storage failures are modelled in the startup read, the logout read and removal, and `setItem` of a value that is not a string.
- AuthContext.GetProfile: a failing `getItem` of `access_token` or `user`, or a failing write of a string inside `getProfile` (context/authContext.tsx:247, :252, :276, :280, :306), is not modelled. In the source the catch at :312-322 answers each with the cached-user fallback, and the model reaches that fallback only through a failed call or a failed non-string write. A failing read of the cache inside that catch (:316), which would reject, is not modelled either.
- The failure of a single `removeItem` in the interceptor's terminal path is not modelled, and neither is a failed read inside either interceptor.
- CredentialStore.SetItem: AsyncStorage rejects `null` and `undefined` but only warns about other non-string values. The model treats every non-string as a failed write.
- `onVerifyOtp` is declared in the context's interface (context/authContext.tsx:13) but never defined or provided, so there is nothing to model.
- Writing `reset_token` is done by the verification screen (app/(auth)/verifyEmail.tsx:69-71), not by the session core. The model only shows that logout preserves it.
- The start-up routing rule (app/index.tsx:14-18) is not modelled: a truthy `authenticated` goes home and anything else to login. By that rule the `null` a fresh start keeps and the `false` a logout sets route the same way.
- The screens, `components/OTPInput.tsx`, `app/splashScreen.tsx`, the layouts and `tailwind.config.js` are rendering or configuration and are left out.

=== FILE: api.dfy ===
/**
 * The axios instance every session request goes through (api/api.tsx): a
 * request interceptor that attaches the stored access token, and a response
 * interceptor that answers a first 401 with one token refresh and a
 * resubmission, or with a terminal clear of the stored credentials.
 *
 * The server is a parameter: `Exchange` fixes its reply to the original
 * request, to the refresh call, and to the resubmitted request. A `Trace`
 * records what the client did: the store afterwards, the outcome, every
 * request the instance sent, the refresh tokens posted, and whether the
 * terminal path cleared the stored credentials. That path also evaluates
 * `globalRouter && globalRouter.replace(...)`; the router is `null` unless
 * `setGlobalRouter` has been called, and neither the root layout nor any
 * screen calls it, so no navigation follows from it.
 */
module Api {
  import opened Maybe
  import opened JsValue
  import opened Http
  import opened CredentialStore

  /** The instance's default headers. */
  const DefaultHeaders: Headers := map["Content-Type" := "application/json"]

  const NoRefreshToken := "No refresh token available"
  const NoAccessInRefresh := "No access token in refresh response"

  datatype Exchange = Exchange(first: Reply, refresh: Reply, retried: Reply)

  datatype Trace = Trace(store: Store, result: Result<Response>, sent: seq<Request>, refreshes: seq<string>, cleared: bool)

  /** The request interceptor: a stored, non-empty access token becomes the bearer header. */
  function AttachToken(store: Store, req: Request): (r: Request)
    ensures r.endpoint == req.endpoint && r.body == req.body && r.retry == req.retry
    ensures Holds(store, AccessKey) ==> r.headers == req.headers[AuthorizationHeader := Bearer(store[AccessKey])]
    ensures !Holds(store, AccessKey) ==> r == req
  {
    match GetItem(store, AccessKey)
    case Some(t) => if t != "" then req.(headers := req.headers[AuthorizationHeader := Bearer(t)]) else req
    case None => req
  }

  /** The refresh call. It goes through plain axios, so neither interceptor sees it. */
  function RefreshRequest(refresh: string): (r: Request)
    ensures r.endpoint == TokenRefresh && OptMember(r.body, "refresh") == Str(refresh)
    ensures AuthorizationHeader !in r.headers && !r.retry
  {
    Request(TokenRefresh, Obj1("refresh", Str(refresh)), map[], false)
  }

  /** A rejection the response interceptor answers with a refresh: a 401 on a request not yet retried. */
  predicate Refreshable(e: Error) {
    IsUnauthorized(e) && !e.config.retry
  }

  /** The terminal path: remove the credentials and reject with `err`; the redirect attempt is a no-op while no router is registered. */
  function Terminal(store: Store, err: Error, refreshes: seq<string>): (t: Trace)
    ensures t.store == RemoveCredentials(store) && t.result == Err(err) && t.cleared
  {
    Trace(RemoveCredentials(store), Err(err), [], refreshes, true)
  }

  /**
   * A request sent through the instance: the request interceptor, the
   * exchange, and on rejection the response interceptor. A request already
   * marked `_retry` triggers no refresh, and the resubmission is so marked, so
   * one original request causes at most one refresh and at most two sends.
   * The store changes only by the terminal clear.
   */
  function Send(store: Store, req: Request, ex: Exchange): (t: Trace)
    decreases if req.retry then 0 else 1, 1
    ensures 1 <= |t.sent| <= (if req.retry then 1 else 2)
    ensures |t.refreshes| <= (if req.retry then 0 else 1)
    ensures t.sent[0] == AttachToken(store, req)
    ensures forall r <- t.sent :: r.endpoint == req.endpoint && r.body == req.body
    ensures t.cleared ==> t.store == RemoveCredentials(store) && t.result.Err?
    ensures !t.cleared ==> t.store == store
  {
    var first := AttachToken(store, req);
    match Dispatch(first, ex.first)
    case Ok(resp) => Trace(store, Ok(resp), [first], [], false)
    case Err(e) =>
      var t := OnRejected(store, e, ex);
      t.(sent := [first] + t.sent)
  }

  /**
   * The response interceptor's rejection handler. Anything but a first 401 is
   * passed on unchanged. A first 401 marks the request, reads the stored
   * refresh token, posts it, and resubmits the request with the new bearer
   * token; a missing refresh token, a failed refresh call, or a refresh
   * response without `access` ends on the terminal path instead. The
   * resubmission is returned, not awaited, inside the `try`, so its own
   * rejection is not caught there.
   */
  function OnRejected(store: Store, e: Error, ex: Exchange): (t: Trace)
    decreases if Refreshable(e) then 1 else 0, 0
    ensures |t.sent| <= (if Refreshable(e) then 1 else 0)
    ensures |t.refreshes| <= (if Refreshable(e) then 1 else 0)
    ensures Refreshable(e) && |t.sent| == 1 ==> t.sent[0].retry && t.sent[0].endpoint == e.config.endpoint && t.sent[0].body == e.config.body
    ensures t.cleared ==> t.store == RemoveCredentials(store) && t.result.Err?
    ensures !t.cleared ==> t.store == store
    ensures t.result.Ok? ==> |t.sent| == 1
  {
    if !Refreshable(e) then Trace(store, Err(e), [], [], false)
    else
      var original := e.config.(retry := true);
      match GetItem(store, RefreshKey)
      case None => Terminal(store, Thrown(NoRefreshToken), [])
      case Some(rt) =>
        if rt == "" then Terminal(store, Thrown(NoRefreshToken), [])
        else match Dispatch(RefreshRequest(rt), ex.refresh)
          case Err(refreshError) => Terminal(store, refreshError, [rt])
          case Ok(resp) =>
            var access := OptMember(resp.data, "access");
            if !Truthy(access) then Terminal(store, Thrown(NoAccessInRefresh), [rt])
            else
              var resubmit := original.(headers := original.headers[AuthorizationHeader := Bearer(Display(access))]);
              var t := Send(store, resubmit, Exchange(ex.retried, ex.refresh, ex.retried));
              t.(refreshes := [rt] + t.refreshes)
  }

  /** The reply that makes the first send fail with a 401. */
  predicate FirstIsUnauthorized(ex: Exchange) {
    ex.first.Answer? && ex.first.response.status == 401
  }

  /** The refresh reply that resolves with a truthy `access`. */
  predicate RefreshGrants(ex: Exchange) {
    && ex.refresh.Answer? && Resolves(ex.refresh.response.status)
    && Truthy(OptMember(ex.refresh.response.data, "access"))
  }

  /** The access token a granting refresh reply carries, as the bearer header spells it. */
  function GrantedToken(ex: Exchange): string
    requires RefreshGrants(ex)
  {
    Display(OptMember(ex.refresh.response.data, "access"))
  }

  /** Anything but a 401 on a request not yet retried passes through: same error, same store, no refresh. */
  lemma PassThrough(store: Store, req: Request, ex: Exchange)
    requires req.retry || !FirstIsUnauthorized(ex)
    ensures var t := Send(store, req, ex);
      && t.result == Dispatch(AttachToken(store, req), ex.first)
      && t.store == store && t.refreshes == [] && !t.cleared && |t.sent| == 1
  {
  }

  /** A 401 with no stored refresh token: no refresh call, credentials removed, rejected with the refresh error. */
  lemma MissingRefreshToken(store: Store, req: Request, ex: Exchange)
    requires !req.retry && FirstIsUnauthorized(ex)
    requires !Holds(store, RefreshKey)
    ensures var t := Send(store, req, ex);
      && t.store == RemoveCredentials(store)
      && t.result == Err(Thrown(NoRefreshToken))
      && t.refreshes == [] && t.cleared && |t.sent| == 1
  {
  }

  /** A refresh that fails, or answers without `access`: one refresh call, then the terminal path. */
  lemma RefreshRefused(store: Store, req: Request, ex: Exchange)
    requires !req.retry && FirstIsUnauthorized(ex)
    requires Holds(store, RefreshKey) && !RefreshGrants(ex)
    ensures var t := Send(store, req, ex);
      && t.store == RemoveCredentials(store)
      && t.refreshes == [store[RefreshKey]] && t.cleared && |t.sent| == 1
      && (ex.refresh.Answer? && Resolves(ex.refresh.response.status) ==> t.result == Err(Thrown(NoAccessInRefresh)))
      && (ex.refresh.NoAnswer? || !Resolves(ex.refresh.response.status) ==>
            t.result == Err(Rejected(RefreshRequest(store[RefreshKey]), if ex.refresh.Answer? then Some(ex.refresh.response) else None)))
  {
  }

  /**
   * A granted refresh: the request is resubmitted once, marked `_retry`, and
   * its outcome, success or failure, is the caller's. The new token is never
   * written to the store, and because the resubmission passes the request
   * interceptor again, a stored access token replaces the new one in the
   * bearer header.
   */
  lemma RefreshGranted(store: Store, req: Request, ex: Exchange)
    requires !req.retry && FirstIsUnauthorized(ex)
    requires Holds(store, RefreshKey) && RefreshGrants(ex)
    ensures var t := Send(store, req, ex);
      && t.store == store && !t.cleared
      && t.refreshes == [store[RefreshKey]]
      && |t.sent| == 2 && t.sent[1].retry
      && AuthorizationHeader in t.sent[1].headers
      && t.sent[1].headers[AuthorizationHeader]
           == Bearer(if Holds(store, AccessKey) then store[AccessKey] else GrantedToken(ex))
      && t.result == Dispatch(t.sent[1], ex.retried)
  {
    var first := AttachToken(store, req);
    var e := Dispatch(first, ex.first).error;
    assert Refreshable(e);
    var original := e.config.(retry := true);
    var access := OptMember(ex.refresh.response.data, "access");
    var resubmit := original.(headers := original.headers[AuthorizationHeader := Bearer(Display(access))]);
    var ex2 := Exchange(ex.retried, ex.refresh, ex.retried);
    PassThrough(store, resubmit, ex2);
    var inner := Send(store, resubmit, ex2);
    assert OnRejected(store, e, ex) == inner.(refreshes := [store[RefreshKey]] + inner.refreshes);
    assert inner.sent[0] == AttachToken(store, resubmit);
    assert AuthorizationHeader in resubmit.headers;
  }

  /**
   * The scenario of a stale stored token: "A0" gets a 401, the refresh with
   * "R1" grants "A2", yet the resubmission carries "A0" again and the store
   * still holds "A0".
   */
  lemma StaleTokenIsResent()
    ensures var store := map[AccessKey := "A0", RefreshKey := "R1"];
      var ex := Exchange(Answer(Response(401, Null)), Answer(Response(200, Obj1("access", Str("A2")))), NoAnswer);
      var t := Send(store, Request(WhoAmI, Undefined, DefaultHeaders, false), ex);
      && t.refreshes == ["R1"]
      && |t.sent| == 2 && AuthorizationHeader in t.sent[1].headers
      && t.sent[1].headers[AuthorizationHeader] == "Bearer A0"
      && AccessKey in t.store && t.store[AccessKey] == "A0"
  {
    var store := map[AccessKey := "A0", RefreshKey := "R1"];
    var ex := Exchange(Answer(Response(401, Null)), Answer(Response(200, Obj1("access", Str("A2")))), NoAnswer);
    var req := Request(WhoAmI, Undefined, DefaultHeaders, false);
    assert Holds(store, RefreshKey) && Holds(store, AccessKey);
    assert OptMember(ex.refresh.response.data, "access") == Str("A2");
    RefreshGranted(store, req, ex);
  }
}

=== FILE: auth_context.dfy ===
/**
 * The session manager (context/authContext.tsx): the in-memory `authState`,
 * the startup load from storage, and the operations the screens call. Each
 * operation is a total function of the state before it, the store, and what
 * the server does (an `Api.Exchange`), and returns the state, the store and
 * the value its promise settles with. Network calls go through `Api.Send`, so
 * the interceptor's terminal clear of the store shows through.
 */
module AuthContext {
  import opened Maybe
  import opened JsValue
  import opened Http
  import opened CredentialStore
  import opened Api
  import opened Text
  import opened JsonCodec

  /** `authState`: the token and a tri-state `authenticated` (`None` is JavaScript's `null`). */
  datatype AuthState = AuthState(token: Option<string>, authenticated: Option<bool>)

  /** The state a fresh provider starts in: `{ token: null, authenticated: null }`. */
  const Initial := AuthState(None, None)

  /** The state every logout ends in: `{ token: null, authenticated: false }`. */
  const SignedOut := AuthState(None, Some(false))

  function SignedIn(token: string): AuthState {
    AuthState(Some(token), Some(true))
  }

  /** `authenticated` true only together with a token. */
  predicate Consistent(a: AuthState) {
    a.authenticated == Some(true) ==> a.token.Some?
  }

  /** What an operation leaves behind; `call` is the network exchange, if one was made. */
  datatype Outcome = Outcome(auth: AuthState, store: Store, result: Result<Value>, call: Option<Trace>)

  /** What the startup load leaves behind; `rejected` is the error its promise rejects with, if any. */
  datatype Boot = Boot(auth: AuthState, loading: bool, rejected: Option<Error>)

  const NoCredentials := "No access token found and no cached user data"

  /** The result objects logout resolves with. */
  function LogoutReport(message: string): Value {
    Obj2("success", Bool(true), "message", Str(message))
  }

  const LoggedOutLocally := "Logged out locally"
  const LoggedOutOk := "Logged out successfully"
  const LoggedOutApiError := "Logged out locally (API error)"

  /** The value `JSON.stringify(v)` hands to `setItem`: a string, or `undefined`. */
  function Stringified(v: Value): (r: Value)
    ensures r.Str? <==> v != Undefined
    ensures r.Str? ==> Parse(r.s) == Some(v)
  {
    match Serialize(v)
    case Some(s) => SerializeRoundTrip(v); Str(s)
    case None => Undefined
  }

  /** The headers of the logout and whoami calls: the instance defaults plus the bearer token read just before. */
  function BearerHeaders(token: string): Headers {
    DefaultHeaders[AuthorizationHeader := Bearer(token)]
  }

  // ---------------------------------------------------------------------------
  // Startup
  // ---------------------------------------------------------------------------

  /**
   * `loadToken`: a non-empty stored access token is taken as a signed-in
   * session without asking the server. Without one the state is left as it
   * was, so a fresh start stays at `authenticated: null`. A failed read is
   * rethrown. `loading` ends false either way.
   */
  function LoadToken(auth: AuthState, store: Store, readFails: bool): (b: Boot)
    ensures !b.loading
    ensures b.rejected.Some? <==> readFails
    ensures b.rejected.Some? ==> b.rejected.value == StorageFailure
    ensures !readFails && Holds(store, AccessKey) ==> b.auth == SignedIn(store[AccessKey])
    ensures readFails || !Holds(store, AccessKey) ==> b.auth == auth
  {
    if readFails then Boot(auth, false, Some(StorageFailure))
    else match GetItem(store, AccessKey)
      case Some(t) => if t != "" then Boot(SignedIn(t), false, None) else Boot(auth, false, None)
      case None => Boot(auth, false, None)
  }

  // ---------------------------------------------------------------------------
  // Login
  // ---------------------------------------------------------------------------

  /** A login response the code can store: token strings under `tokens` and a serialisable `user`. */
  predicate LoginPayload(data: Value) {
    && !Nullish(data)
    && !Nullish(Member(data, "tokens"))
    && Member(Member(data, "tokens"), "access").Str?
    && Member(Member(data, "tokens"), "refresh").Str?
    && Member(data, "user") != Undefined
  }

  function LoginAccess(data: Value): string
    requires LoginPayload(data)
  {
    Member(Member(data, "tokens"), "access").s
  }

  function LoginRefresh(data: Value): string
    requires LoginPayload(data)
  {
    Member(Member(data, "tokens"), "refresh").s
  }

  function LoginUser(data: Value): Value
    requires LoginPayload(data)
  {
    Member(data, "user")
  }

  /** The login body: email and password exactly as the caller passed them. */
  function LoginBody(email: string, password: string): (b: Value)
    ensures OptMember(b, "email") == Str(email)
    ensures OptMember(b, "password") == Str(password)
  {
    assert "email" != "password" by { assert |"email"| != |"password"|; }
    Obj2("email", Str(email), "password", Str(password))
  }

  /**
   * `onLogin`: post the credentials, destructure `tokens` and `user`, write
   * the access token, the refresh token and the serialised user in that order,
   * then set the state. The first thing that throws ends the operation with
   * the state untouched and the writes made so far kept.
   */
  function OnLogin(auth: AuthState, store: Store, email: string, password: string, ex: Exchange): (o: Outcome)
    ensures o.call.Some? && 1 <= |o.call.value.sent| <= 2 && |o.call.value.refreshes| <= 1
    ensures o.call.value.sent[0].endpoint == Http.Login
    ensures forall r <- o.call.value.sent ::
      OptMember(r.body, "email") == Str(email) && OptMember(r.body, "password") == Str(password)
    ensures o.result.Ok? <==> o.call.value.result.Ok? && LoginPayload(o.call.value.result.value.data)
    ensures o.result.Ok? ==>
      var data := o.call.value.result.value.data;
      && o.result.value == data
      && o.auth == SignedIn(LoginAccess(data))
      && o.store == o.call.value.store[AccessKey := LoginAccess(data)][RefreshKey := LoginRefresh(data)][UserKey := Encode(LoginUser(data))]
    ensures o.result.Err? ==> o.auth == auth
    ensures o.call.value.result.Err? ==> o.store == o.call.value.store && o.result == Err(o.call.value.result.error)
  {
    var t := Send(store, Request(Http.Login, LoginBody(email, password), DefaultHeaders, false), ex);
    match t.result
    case Err(e) => Outcome(auth, t.store, Err(e), Some(t))
    case Ok(resp) =>
      var data := resp.data;
      if Nullish(data) || Nullish(Member(data, "tokens")) then Outcome(auth, t.store, Err(TypeError), Some(t))
      else
        var tokens := Member(data, "tokens");
        var access := Member(tokens, "access");
        match SetItem(t.store, AccessKey, access)
        case Err(e) => Outcome(auth, t.store, Err(e), Some(t))
        case Ok(s1) =>
          match SetItem(s1, RefreshKey, Member(tokens, "refresh"))
          case Err(e) => Outcome(auth, s1, Err(e), Some(t))
          case Ok(s2) =>
            match SetItem(s2, UserKey, Stringified(Member(data, "user")))
            case Err(e) => Outcome(auth, s2, Err(e), Some(t))
            case Ok(s3) => Outcome(SignedIn(access.s), s3, Ok(data), Some(t))
  }

  // ---------------------------------------------------------------------------
  // Logout
  // ---------------------------------------------------------------------------

  /** Which of logout's storage operations throw: the token read, the removal. */
  datatype LogoutFaults = LogoutFaults(readFails: bool, removeFails: bool)

  /** `clearAuthData`: remove the three credential keys; a failing removal is swallowed. */
  function ClearAuthData(store: Store, removeFails: bool): (r: Store)
    ensures !removeFails ==> forall k :: k in r <==> k in store && k !in CredentialKeys
    ensures forall k :: k in r ==> k in store && r[k] == store[k]
    ensures removeFails ==> r == store
  {
    if removeFails then store else RemoveCredentials(store)
  }

  /**
   * `onLogout`: without a stored token no call is made; otherwise the logout
   * endpoint is called with the bearer token. Whatever happens, the local
   * credentials are cleared, the state becomes signed out, and the promise
   * resolves.
   */
  function OnLogout(auth: AuthState, store: Store, ex: Exchange, faults: LogoutFaults): (o: Outcome)
    ensures o.auth == SignedOut
    ensures o.result.Ok?
    ensures !faults.removeFails ==> o.store == RemoveCredentials(store)
    ensures faults.removeFails ==> o.store == store || o.store == RemoveCredentials(store)
    ensures forall k :: k !in CredentialKeys ==> (k in o.store <==> k in store)
    ensures forall k :: k !in CredentialKeys && k in store ==> o.store[k] == store[k]
    ensures o.call.Some? <==> !faults.readFails && Holds(store, AccessKey)
    ensures faults.readFails ==> o.result.value == LogoutReport(LoggedOutApiError)
    ensures !faults.readFails && !Holds(store, AccessKey) ==> o.result.value == LogoutReport(LoggedOutLocally)
    ensures o.call.Some? ==>
      && 1 <= |o.call.value.sent| <= 2 && |o.call.value.refreshes| <= 1
      && AuthorizationHeader in o.call.value.sent[0].headers
      && o.call.value.sent[0].headers[AuthorizationHeader] == Bearer(store[AccessKey])
    ensures o.call.Some? && o.call.value.result.Ok? ==>
      o.result.value == Or(o.call.value.result.value.data, LogoutReport(LoggedOutOk))
    ensures o.call.Some? && o.call.value.result.Err? ==> o.result.value == LogoutReport(LoggedOutApiError)
  {
    if faults.readFails then
      Outcome(SignedOut, ClearAuthData(store, faults.removeFails), Ok(LogoutReport(LoggedOutApiError)), None)
    else if !Holds(store, AccessKey) then
      Outcome(SignedOut, ClearAuthData(store, faults.removeFails), Ok(LogoutReport(LoggedOutLocally)), None)
    else
      var token := store[AccessKey];
      var t := Send(store, Request(Http.Logout, Undefined, BearerHeaders(token), false), ex);
      RemoveCredentialsIdempotent(store);
      match t.result
      case Ok(resp) =>
        Outcome(SignedOut, ClearAuthData(t.store, faults.removeFails), Ok(Or(resp.data, LogoutReport(LoggedOutOk))), Some(t))
      case Err(_) =>
        Outcome(SignedOut, ClearAuthData(t.store, faults.removeFails), Ok(LogoutReport(LoggedOutApiError)), Some(t))
  }

  // ---------------------------------------------------------------------------
  // Profile
  // ---------------------------------------------------------------------------

  /**
   * The `catch` of `getProfile`: a cached user is parsed and returned (a
   * parse failure throws again); without one the error is rethrown.
   */
  function CachedOr(store: Store, e: Error): (r: Result<Value>)
    ensures !Holds(store, UserKey) ==> r == Err(e)
    ensures Holds(store, UserKey) && Parse(store[UserKey]).Some? ==> r == Ok(Parse(store[UserKey]).value)
    ensures Holds(store, UserKey) && Parse(store[UserKey]).None? ==> r == Err(SyntaxError)
  {
    match GetItem(store, UserKey)
    case None => Err(e)
    case Some(u) =>
      if u == "" then Err(e)
      else match Parse(u)
        case Some(v) => Ok(v)
        case None => Err(SyntaxError)
  }

  /** State and store after the token block of a whoami response, and what it threw, if anything. */
  datatype Adoption = Adoption(auth: AuthState, store: Store, failure: Option<Error>)

  /** `response.data.token || response.data.tokens`. */
  function TokenBlock(data: Value): (b: Value)
    requires !Nullish(data)
    ensures Truthy(Member(data, "token")) ==> b == Member(data, "token")
    ensures !Truthy(Member(data, "token")) ==> b == Member(data, "tokens")
    ensures Truthy(b) <==> Truthy(Member(data, "token")) || Truthy(Member(data, "tokens"))
  {
    Or(Member(data, "token"), Member(data, "tokens"))
  }

  /** `access_new || access` of a truthy token block. */
  function NewAccess(block: Value): (t: Value)
    requires Truthy(block)
    ensures Truthy(Member(block, "access_new")) ==> t == Member(block, "access_new")
    ensures !Truthy(Member(block, "access_new")) ==> t == Member(block, "access")
    ensures Truthy(t) <==> Truthy(Member(block, "access_new")) || Truthy(Member(block, "access"))
  {
    Or(Member(block, "access_new"), Member(block, "access"))
  }

  /**
   * The tokens a whoami response may carry: the block under `token` or else
   * `tokens`; its `access_new` or else `access` is written as the access token
   * and becomes the state's token; its `refresh` is written when present. The
   * state changes only after both writes.
   */
  function AdoptTokens(auth: AuthState, store: Store, data: Value): (a: Adoption)
    requires !Nullish(data)
    ensures !Truthy(TokenBlock(data)) ==> a == Adoption(auth, store, None)
    ensures a.failure.None? && Truthy(TokenBlock(data)) ==>
      var block := TokenBlock(data);
      && (Truthy(NewAccess(block)) ==>
            && NewAccess(block).Str? && a.auth == SignedIn(NewAccess(block).s)
            && AccessKey in a.store && a.store[AccessKey] == NewAccess(block).s)
      && (!Truthy(NewAccess(block)) ==>
            && a.auth == auth && (AccessKey in a.store <==> AccessKey in store)
            && (AccessKey in store ==> a.store[AccessKey] == store[AccessKey]))
      && (Truthy(Member(block, "refresh")) ==>
            Member(block, "refresh").Str? && RefreshKey in a.store && a.store[RefreshKey] == Member(block, "refresh").s)
      && (!Truthy(Member(block, "refresh")) ==>
            && (RefreshKey in a.store <==> RefreshKey in store)
            && (RefreshKey in store ==> a.store[RefreshKey] == store[RefreshKey]))
    ensures a.failure.Some? ==> a.auth == auth && a.failure.value == StorageFailure
    ensures a.failure.Some? ==>
      && (RefreshKey in a.store <==> RefreshKey in store)
      && (RefreshKey in store ==> a.store[RefreshKey] == store[RefreshKey])
    ensures forall k :: k != AccessKey && k != RefreshKey ==> (k in a.store <==> k in store)
    ensures forall k :: k != AccessKey && k != RefreshKey && k in store ==> a.store[k] == store[k]
    ensures a.auth == auth || (a.auth.token.Some? && a.auth == SignedIn(a.auth.token.value))
  {
    var block := TokenBlock(data);
    if !Truthy(block) then Adoption(auth, store, None)
    else
      var access := NewAccess(block);
      var refresh := Member(block, "refresh");
      var first := if Truthy(access) then SetItem(store, AccessKey, access) else Ok(store);
      match first
      case Err(e) => Adoption(auth, store, Some(e))
      case Ok(s1) =>
        var second := if Truthy(refresh) then SetItem(s1, RefreshKey, refresh) else Ok(s1);
        match second
        case Err(e) => Adoption(auth, s1, Some(e))
        case Ok(s2) => Adoption(if Truthy(access) then SignedIn(access.s) else auth, s2, None)
  }

  /** The profile of a whoami response: `user`, else `data`, else the whole payload. */
  function PickProfile(data: Value): (p: Value)
    requires !Nullish(data)
    ensures Truthy(Member(data, "user")) ==> p == Member(data, "user")
    ensures !Truthy(Member(data, "user")) && Truthy(Member(data, "data")) ==> p == Member(data, "data")
    ensures !Truthy(Member(data, "user")) && !Truthy(Member(data, "data")) ==> p == data
  {
    if Truthy(Member(data, "user")) then Member(data, "user")
    else if Truthy(Member(data, "data")) then Member(data, "data")
    else data
  }

  /**
   * `getProfile`. Without a stored token: the cached user, or the "no
   * credentials" error, with no call. With one: whoami with the bearer token;
   * adopt any tokens in the response, pick the profile, cache it when truthy
   * and return it. Anything that throws on the way falls back to the cached
   * user, read from the store as it is at that moment.
   */
  function GetProfile(auth: AuthState, store: Store, ex: Exchange): (o: Outcome)
    ensures o.call.Some? <==> Holds(store, AccessKey)
    ensures o.call.None? ==> o.auth == auth && o.store == store && o.result == CachedOr(store, Thrown(NoCredentials))
    ensures o.call.Some? ==>
      && 1 <= |o.call.value.sent| <= 2 && |o.call.value.refreshes| <= 1
      && o.call.value.sent[0].endpoint == WhoAmI
      && AuthorizationHeader in o.call.value.sent[0].headers
      && o.call.value.sent[0].headers[AuthorizationHeader] == Bearer(store[AccessKey])
    ensures o.call.Some? && o.call.value.result.Err? ==>
      o.auth == auth && o.store == o.call.value.store && o.result == CachedOr(o.call.value.store, o.call.value.result.error)
    ensures o.call.Some? && o.call.value.result.Ok? && Nullish(o.call.value.result.value.data) ==>
      o.auth == auth && o.store == o.call.value.store && o.result == CachedOr(o.call.value.store, TypeError)
    ensures o.call.Some? && o.call.value.result.Ok? && !Nullish(o.call.value.result.value.data) ==>
      var data := o.call.value.result.value.data;
      var a := AdoptTokens(auth, o.call.value.store, data);
      && o.auth == a.auth
      && (a.failure.Some? ==> o.store == a.store && o.result == CachedOr(a.store, a.failure.value))
      && (a.failure.None? ==> o.result == Ok(PickProfile(data)))
      && (a.failure.None? && Truthy(PickProfile(data)) ==> o.store == a.store[UserKey := Encode(PickProfile(data))])
      && (a.failure.None? && !Truthy(PickProfile(data)) ==> o.store == a.store)
    ensures o.auth == auth || (o.auth.token.Some? && o.auth == SignedIn(o.auth.token.value))
    ensures forall k :: k !in CredentialKeys && k in o.store ==> k in store && o.store[k] == store[k]
    ensures forall k :: k !in CredentialKeys && k in store ==> k in o.store
  {
    if !Holds(store, AccessKey) then Outcome(auth, store, CachedOr(store, Thrown(NoCredentials)), None)
    else
      var t := Send(store, Request(WhoAmI, Undefined, BearerHeaders(store[AccessKey]), false), ex);
      match t.result
      case Err(e) => Outcome(auth, t.store, CachedOr(t.store, e), Some(t))
      case Ok(resp) =>
        var data := resp.data;
        if Nullish(data) then Outcome(auth, t.store, CachedOr(t.store, TypeError), Some(t))
        else
          var a := AdoptTokens(auth, t.store, data);
          if a.failure.Some? then Outcome(a.auth, a.store, CachedOr(a.store, a.failure.value), Some(t))
          else
            var profile := PickProfile(data);
            if Truthy(profile) then Outcome(a.auth, a.store[UserKey := Encode(profile)], Ok(profile), Some(t))
            else Outcome(a.auth, a.store, Ok(profile), Some(t))
  }

  // ---------------------------------------------------------------------------
  // Requests that keep no state
  // ---------------------------------------------------------------------------

  /**
   * A post whose response data is returned as it is. The session code writes
   * nothing; only the interceptor's terminal clear can change the store.
   */
  function PostAndReturn(auth: AuthState, store: Store, endpoint: Endpoint, body: Value, ex: Exchange): (o: Outcome)
    ensures o.auth == auth
    ensures o.call.Some? && o.store == o.call.value.store
    ensures 1 <= |o.call.value.sent| <= 2 && |o.call.value.refreshes| <= 1
    ensures forall r <- o.call.value.sent :: r.endpoint == endpoint && r.body == body
    ensures o.call.value.result.Ok? ==> o.result == Ok(o.call.value.result.value.data)
    ensures o.call.value.result.Err? ==> o.result == Err(o.call.value.result.error)
    ensures o.store == store || o.store == RemoveCredentials(store)
  {
    var t := Send(store, Request(endpoint, body, DefaultHeaders, false), ex);
    match t.result
    case Ok(resp) => Outcome(auth, t.store, Ok(resp.data), Some(t))
    case Err(e) => Outcome(auth, t.store, Err(e), Some(t))
  }

  /** The registration body: the email trimmed and lower-cased, the other three fields trimmed. */
  function RegisterBody(email: string, username: string, password: string, confirmPassword: string): (b: Value)
    ensures OptMember(b, "email") == Str(NormalizeEmail(email))
    ensures OptMember(b, "username") == Str(Trim(username))
    ensures OptMember(b, "password") == Str(Trim(password))
    ensures OptMember(b, "confirm_password") == Str(Trim(confirmPassword))
  {
    assert "email" != "username" && "email" != "password" && "email" != "confirm_password" by {
      assert |"email"| == 5 && |"username"| == 8 && |"password"| == 8 && |"confirm_password"| == 16;
    }
    assert "username" != "password" by { assert "username"[0] != "password"[0]; }
    assert "username" != "confirm_password" && "password" != "confirm_password" by {
      assert |"username"| == 8 && |"password"| == 8 && |"confirm_password"| == 16;
    }
    Obj4("email", Str(NormalizeEmail(email)), "username", Str(Trim(username)),
         "password", Str(Trim(password)), "confirm_password", Str(Trim(confirmPassword)))
  }

  /** The body of the calls that carry only an email, trimmed and lower-cased. */
  function EmailBody(email: string): (b: Value)
    ensures OptMember(b, "email") == Str(NormalizeEmail(email))
  {
    Obj1("email", Str(NormalizeEmail(email)))
  }

  /** The body of the two code checks: the email trimmed and lower-cased, the code trimmed. */
  function CodeBody(email: string, code: string): (b: Value)
    ensures OptMember(b, "email") == Str(NormalizeEmail(email))
    ensures OptMember(b, "verification_code") == Str(Trim(code))
  {
    assert "email" != "verification_code" by { assert |"email"| != |"verification_code"|; }
    Obj2("email", Str(NormalizeEmail(email)), "verification_code", Str(Trim(code)))
  }

  /** The change-password body: the new password, its confirmation and the reset token, each trimmed. */
  function ChangePasswordBody(newPassword: string, confirmNewPassword: string, resetToken: string): (b: Value)
    ensures OptMember(b, "new_password") == Str(Trim(newPassword))
    ensures OptMember(b, "confirm_new_password") == Str(Trim(confirmNewPassword))
    ensures OptMember(b, "reset_token") == Str(Trim(resetToken))
  {
    assert "new_password" != "confirm_new_password" && "new_password" != "reset_token"
      && "confirm_new_password" != "reset_token" by {
      assert |"new_password"| == 12 && |"confirm_new_password"| == 20 && |"reset_token"| == 11;
    }
    Obj3("new_password", Str(Trim(newPassword)), "confirm_new_password", Str(Trim(confirmNewPassword)),
         "reset_token", Str(Trim(resetToken)))
  }

  /** The operation settles with what the call settled with: the response data on success, the call's error otherwise. */
  predicate ReturnsReply(o: Outcome) {
    && o.call.Some?
    && (o.call.value.result.Ok? ==> o.result == Ok(o.call.value.result.value.data))
    && (o.call.value.result.Err? ==> o.result == Err(o.call.value.result.error))
  }

  /** `onRegister`. */
  function OnRegister(auth: AuthState, store: Store, email: string, username: string, password: string, confirmPassword: string, ex: Exchange): (o: Outcome)
    ensures o.auth == auth && o.call.Some?
    ensures ReturnsReply(o)
    ensures o.store == store || o.store == RemoveCredentials(store)
    ensures forall r <- o.call.value.sent ::
      && r.endpoint == Http.Register
      && OptMember(r.body, "email") == Str(NormalizeEmail(email))
      && OptMember(r.body, "username") == Str(Trim(username))
      && OptMember(r.body, "password") == Str(Trim(password))
      && OptMember(r.body, "confirm_password") == Str(Trim(confirmPassword))
  {
    PostAndReturn(auth, store, Http.Register, RegisterBody(email, username, password, confirmPassword), ex)
  }

  /** `onForgetPassword`. */
  function OnForgetPassword(auth: AuthState, store: Store, email: string, ex: Exchange): (o: Outcome)
    ensures o.auth == auth && o.call.Some?
    ensures ReturnsReply(o)
    ensures o.store == store || o.store == RemoveCredentials(store)
    ensures forall r <- o.call.value.sent ::
      r.endpoint == ForgotPassword && OptMember(r.body, "email") == Str(NormalizeEmail(email))
  {
    PostAndReturn(auth, store, ForgotPassword, EmailBody(email), ex)
  }

  /** `onVerifyEmail`. */
  function OnVerifyEmail(auth: AuthState, store: Store, email: string, code: string, ex: Exchange): (o: Outcome)
    ensures o.auth == auth && o.call.Some?
    ensures ReturnsReply(o)
    ensures o.store == store || o.store == RemoveCredentials(store)
    ensures forall r <- o.call.value.sent ::
      && r.endpoint == VerifyEmail
      && OptMember(r.body, "email") == Str(NormalizeEmail(email))
      && OptMember(r.body, "verification_code") == Str(Trim(code))
  {
    PostAndReturn(auth, store, VerifyEmail, CodeBody(email, code), ex)
  }

  /** `onResendOTP`. */
  function OnResendOtp(auth: AuthState, store: Store, email: string, ex: Exchange): (o: Outcome)
    ensures o.auth == auth && o.call.Some?
    ensures ReturnsReply(o)
    ensures o.store == store || o.store == RemoveCredentials(store)
    ensures forall r <- o.call.value.sent ::
      r.endpoint == ResendCode && OptMember(r.body, "email") == Str(NormalizeEmail(email))
  {
    PostAndReturn(auth, store, ResendCode, EmailBody(email), ex)
  }

  /** `onVerifyForgotPassword`. */
  function OnVerifyForgotPassword(auth: AuthState, store: Store, email: string, code: string, ex: Exchange): (o: Outcome)
    ensures o.auth == auth && o.call.Some?
    ensures ReturnsReply(o)
    ensures o.store == store || o.store == RemoveCredentials(store)
    ensures forall r <- o.call.value.sent ::
      && r.endpoint == VerifyForgotPassword
      && OptMember(r.body, "email") == Str(NormalizeEmail(email))
      && OptMember(r.body, "verification_code") == Str(Trim(code))
  {
    PostAndReturn(auth, store, VerifyForgotPassword, CodeBody(email, code), ex)
  }

  /** `onChangePassword`. */
  function OnChangePassword(auth: AuthState, store: Store, newPassword: string, confirmNewPassword: string, resetToken: string, ex: Exchange): (o: Outcome)
    ensures o.auth == auth && o.call.Some?
    ensures ReturnsReply(o)
    ensures o.store == store || o.store == RemoveCredentials(store)
    ensures forall r <- o.call.value.sent ::
      && r.endpoint == ChangePassword
      && OptMember(r.body, "new_password") == Str(Trim(newPassword))
      && OptMember(r.body, "confirm_new_password") == Str(Trim(confirmNewPassword))
      && OptMember(r.body, "reset_token") == Str(Trim(resetToken))
  {
    PostAndReturn(auth, store, ChangePassword, ChangePasswordBody(newPassword, confirmNewPassword, resetToken), ex)
  }
}

=== FILE: auth_context_facts.dfy ===
/**
 * Properties of the session operations taken together: what a restart reads
 * back after login and logout, what the profile cache gives back when the
 * server is unreachable, how the interceptor's terminal clear of the store
 * leaves the in-memory state behind, and the invariant the state keeps.
 */
module AuthContextFacts {
  import opened Maybe
  import opened JsValue
  import opened Http
  import opened CredentialStore
  import opened Api
  import opened Text
  import opened JsonCodec
  import opened AuthContext

  const NoFaults := LogoutFaults(false, false)

  /** The server does not answer the first request at all. */
  predicate Unreachable(ex: Exchange) {
    ex.first.NoAnswer?
  }

  /** The login resolves, whether the server accepted it on the first send or after a refresh and resubmission. */
  predicate LoginSucceeds(auth: AuthState, store: Store, email: string, password: string, ex: Exchange) {
    OnLogin(auth, store, email, password, ex).result.Ok?
  }

  /**
   * Logout is idempotent: a second logout after a clean one makes no call,
   * reports "Logged out locally", and leaves state and store as they were.
   */
  lemma LogoutIdempotent(auth: AuthState, store: Store, ex1: Exchange, ex2: Exchange)
    ensures var o1 := OnLogout(auth, store, ex1, NoFaults);
      var o2 := OnLogout(o1.auth, o1.store, ex2, NoFaults);
      && o2.auth == o1.auth && o2.store == o1.store
      && o2.call.None? && o2.result == Ok(LogoutReport(LoggedOutLocally))
  {
    var o1 := OnLogout(auth, store, ex1, NoFaults);
    assert AccessKey in CredentialKeys;
    assert !Holds(o1.store, AccessKey);
    RemoveCredentialsIdempotent(store);
  }

  /** Logout never touches the keys it does not own, such as the reset token the verification screen stores. */
  lemma LogoutKeepsResetToken(auth: AuthState, store: Store, ex: Exchange, faults: LogoutFaults)
    requires ResetKey in store
    ensures var o := OnLogout(auth, store, ex, faults);
      ResetKey in o.store && o.store[ResetKey] == store[ResetKey]
  {
    assert ResetKey !in CredentialKeys by {
      assert ResetKey != AccessKey && ResetKey != RefreshKey && ResetKey != UserKey by {
        assert |ResetKey| == 11 && |AccessKey| == 12 && |RefreshKey| == 13 && |UserKey| == 4;
      }
    }
  }

  /**
   * A restart after a successful login with a non-empty access token reads
   * back exactly the state the login set, whether the login was accepted at
   * once or after a refresh and resubmission.
   */
  lemma RestartRestoresLogin(auth: AuthState, store: Store, email: string, password: string, ex: Exchange, before: AuthState)
    requires LoginSucceeds(auth, store, email, password, ex)
    requires LoginAccess(OnLogin(auth, store, email, password, ex).result.value) != ""
    ensures var o := OnLogin(auth, store, email, password, ex);
      LoadToken(before, o.store, false).auth == o.auth
  {
    var o := OnLogin(auth, store, email, password, ex);
    var data := o.result.value;
    assert AccessKey != RefreshKey && AccessKey != UserKey by {
      assert |AccessKey| == 12 && |RefreshKey| == 13 && |UserKey| == 4;
    }
    assert o.store[AccessKey] == LoginAccess(data);
  }

  /**
   * A login whose payload carries an empty access token still sets
   * `authenticated: true`, but a restart does not restore it.
   */
  lemma EmptyAccessIsNotRestored(auth: AuthState, store: Store, email: string, password: string, ex: Exchange)
    requires LoginSucceeds(auth, store, email, password, ex)
    requires LoginAccess(OnLogin(auth, store, email, password, ex).result.value) == ""
    ensures var o := OnLogin(auth, store, email, password, ex);
      && o.auth == SignedIn("")
      && LoadToken(Initial, o.store, false).auth == Initial
  {
  }

  /**
   * Logout sets `authenticated: false`, but a restart after it finds no token
   * and leaves a fresh provider at `authenticated: null`.
   */
  lemma RestartAfterLogout(auth: AuthState, store: Store, ex: Exchange, readFails: bool)
    ensures var o := OnLogout(auth, store, ex, LogoutFaults(readFails, false));
      && o.auth == SignedOut
      && LoadToken(Initial, o.store, false).auth == Initial
      && Initial != SignedOut
  {
    assert AccessKey in CredentialKeys;
  }

  /**
   * After a successful login, a profile request the server never answers
   * returns the user the login cached, whether or not the access token is
   * empty.
   */
  lemma LoginThenOfflineProfile(auth: AuthState, store: Store, email: string, password: string, ex: Exchange, later: Exchange)
    requires LoginSucceeds(auth, store, email, password, ex)
    requires Unreachable(later)
    ensures var o := OnLogin(auth, store, email, password, ex);
      GetProfile(o.auth, o.store, later).result == Ok(LoginUser(o.result.value))
  {
    var o := OnLogin(auth, store, email, password, ex);
    var user := LoginUser(o.result.value);
    assert UserKey in o.store && o.store[UserKey] == Encode(user);
    SerializeRoundTrip(user);
    assert Holds(o.store, UserKey);
    if Holds(o.store, AccessKey) {
      var req := Request(WhoAmI, Undefined, BearerHeaders(o.store[AccessKey]), false);
      PassThrough(o.store, req, later);
    }
  }

  /**
   * A profile fetched and cached is what the next profile request returns
   * when the server cannot be reached.
   */
  lemma ProfileCacheRoundTrip(auth: AuthState, store: Store, ex: Exchange, later: Exchange)
    requires var o := GetProfile(auth, store, ex);
      && o.call.Some? && o.call.value.result.Ok? && !Nullish(o.call.value.result.value.data)
      && AdoptTokens(auth, o.call.value.store, o.call.value.result.value.data).failure.None?
      && Truthy(PickProfile(o.call.value.result.value.data))
    requires Unreachable(later)
    ensures var o := GetProfile(auth, store, ex);
      GetProfile(o.auth, o.store, later).result == o.result
  {
    var o := GetProfile(auth, store, ex);
    var profile := PickProfile(o.call.value.result.value.data);
    assert o.result == Ok(profile);
    assert UserKey in o.store && o.store[UserKey] == Encode(profile);
    SerializeRoundTrip(profile);
    assert Holds(o.store, UserKey);
    if Holds(o.store, AccessKey) {
      var req := Request(WhoAmI, Undefined, BearerHeaders(o.store[AccessKey]), false);
      PassThrough(o.store, req, later);
    }
  }

  /**
   * A login answered with 401 while no refresh token is stored is rejected
   * with the refresh error, not the 401, and the stored credentials are gone.
   */
  lemma LoginRejectionReplaced(auth: AuthState, store: Store, email: string, password: string, ex: Exchange)
    requires FirstIsUnauthorized(ex) && !Holds(store, RefreshKey)
    ensures var o := OnLogin(auth, store, email, password, ex);
      && o.result == Err(Thrown(NoRefreshToken))
      && o.store == RemoveCredentials(store)
      && o.auth == auth
      && o.call.value.refreshes == []
  {
    MissingRefreshToken(store, Request(Http.Login, LoginBody(email, password), DefaultHeaders, false), ex);
  }

  /**
   * The terminal clear touches only the store: a signed-in session whose
   * request ends there keeps `authenticated: true` in memory while the store
   * no longer holds a token, so a restart would not sign it in.
   */
  lemma TerminalClearLeavesStateBehind(token: string, store: Store, ex: Exchange, later: AuthState)
    requires FirstIsUnauthorized(ex) && !Holds(store, RefreshKey)
    ensures var o := GetProfile(SignedIn(token), store, ex);
      && o.auth == SignedIn(token)
      && !Holds(o.store, AccessKey)
      && LoadToken(later, o.store, false).auth == later
  {
    var o := GetProfile(SignedIn(token), store, ex);
    if Holds(store, AccessKey) {
      MissingRefreshToken(store, Request(WhoAmI, Undefined, BearerHeaders(store[AccessKey]), false), ex);
      assert AccessKey in CredentialKeys;
    }
  }

  /**
   * Login posts the email as typed, while the other operations post it
   * trimmed and lower-cased: " A@x " reaches the login endpoint unchanged and
   * the password-reset endpoint as "a@x".
   */
  lemma LoginDoesNotNormalise(auth: AuthState, store: Store, ex: Exchange)
    ensures var o := OnLogin(auth, store, " A@x ", "pw", ex);
      forall r <- o.call.value.sent :: OptMember(r.body, "email") == Str(" A@x ")
    ensures var o := OnForgetPassword(auth, store, " A@x ", ex);
      forall r <- o.call.value.sent :: OptMember(r.body, "email") == Str("a@x")
    ensures NormalizeEmail(" A@x ") != " A@x "
  {
    var s := " A@x ";
    assert LeadingTrimmable(s) == 1 by {
      assert IsTrimmable(s[0]) && !IsTrimmable(s[1]);
      assert LeadingTrimmable(s[1..]) == 0;
    }
    var t := Trim(s);
    assert t == "A@x" by {
      assert TrimStart(s) == "A@x ";
      assert TrimEnd("A@x ") == TrimEnd("A@x");
      assert TrimEnd("A@x") == "A@x";
    }
    assert ToLower(t) == "a@x" by {
      assert LowerChar('A') == 'a';
    }
  }

  /** `authenticated: true` never comes without a token: every operation keeps `Consistent`. */
  lemma ConsistentIsKept(auth: AuthState, store: Store, ex: Exchange)
    requires Consistent(auth)
    ensures forall readFails :: Consistent(LoadToken(auth, store, readFails).auth)
    ensures forall email, password :: Consistent(OnLogin(auth, store, email, password, ex).auth)
    ensures forall faults :: Consistent(OnLogout(auth, store, ex, faults).auth)
    ensures Consistent(GetProfile(auth, store, ex).auth)
    ensures forall email, username, password, confirm ::
      Consistent(OnRegister(auth, store, email, username, password, confirm, ex).auth)
    ensures forall email :: Consistent(OnForgetPassword(auth, store, email, ex).auth)
    ensures forall email, code :: Consistent(OnVerifyEmail(auth, store, email, code, ex).auth)
    ensures forall email :: Consistent(OnResendOtp(auth, store, email, ex).auth)
    ensures forall email, code :: Consistent(OnVerifyForgotPassword(auth, store, email, code, ex).auth)
    ensures forall newPassword, confirm, resetToken ::
      Consistent(OnChangePassword(auth, store, newPassword, confirm, resetToken, ex).auth)
  {
  }

  /**
   * A profile request whose first answer is 401 and whose refresh is granted:
   * the whoami call is resent once with the stored token, not the granted one,
   * and if that resent call is not answered the store still holds the old
   * token and the cached user is returned.
   */
  lemma RefreshedTokenIsDropped(auth: AuthState, store: Store, ex: Exchange)
    requires Holds(store, AccessKey) && Holds(store, RefreshKey)
    requires FirstIsUnauthorized(ex) && RefreshGrants(ex) && ex.retried.NoAnswer?
    ensures var o := GetProfile(auth, store, ex);
      && o.call.Some? && o.call.value.refreshes == [store[RefreshKey]]
      && |o.call.value.sent| == 2
      && AuthorizationHeader in o.call.value.sent[1].headers
      && o.call.value.sent[1].headers[AuthorizationHeader] == Bearer(store[AccessKey])
      && o.store == store && o.auth == auth
      && o.result == CachedOr(store, Rejected(o.call.value.sent[1], None))
  {
    RefreshGranted(store, Request(WhoAmI, Undefined, BearerHeaders(store[AccessKey]), false), ex);
  }
}

=== FILE: credential_store.dfy ===
/**
 * The persistent key/value store (AsyncStorage) as a map, with the key names
 * the session code uses.
 */
module CredentialStore {
  import opened Maybe
  import opened JsValue
  import opened Http

  type Store = map<string, string>

  const AccessKey := "access_token"
  const RefreshKey := "refresh_token"
  const UserKey := "user"
  const ResetKey := "reset_token"

  /** The three keys logout and an irrecoverable refresh remove together. */
  const CredentialKeys: set<string> := {AccessKey, RefreshKey, UserKey}

  /** `getItem(key)`: the stored string, or `null`. */
  function GetItem(store: Store, key: string): (r: Option<string>)
    ensures r.Some? <==> key in store
    ensures r.Some? ==> r.value == store[key]
  {
    if key in store then Some(store[key]) else None
  }

  /** `if (await getItem(key))`: a value is stored and it is not the empty string. */
  predicate Holds(store: Store, key: string) {
    key in store && store[key] != ""
  }

  /**
   * `setItem(key, v)`. A string is stored; any other value is a failed write
   * (the storage layer refuses `null` and `undefined` and accepts only strings).
   */
  function SetItem(store: Store, key: string, v: Value): (r: Result<Store>)
    ensures r.Ok? <==> v.Str?
    ensures r.Ok? ==> key in r.value && r.value[key] == v.s
    ensures r.Ok? ==> forall k :: k != key ==> (k in r.value <==> k in store)
    ensures r.Ok? ==> forall k :: k != key && k in store ==> r.value[k] == store[k]
    ensures r.Err? ==> r.error == StorageFailure
  {
    if v.Str? then Ok(store[key := v.s]) else Err(StorageFailure)
  }

  /** Removing the three credential keys; every other key keeps its value. */
  function RemoveCredentials(store: Store): (r: Store)
    ensures forall k :: k in r <==> k in store && k !in CredentialKeys
    ensures forall k :: k in r ==> r[k] == store[k]
  {
    store - CredentialKeys
  }

  /** Removing the credentials twice is removing them once. */
  lemma RemoveCredentialsIdempotent(store: Store)
    ensures RemoveCredentials(RemoveCredentials(store)) == RemoveCredentials(store)
  {
  }
}

=== FILE: http.dfy ===
/**
 * The HTTP exchange as the session code sees it through axios: requests with
 * headers and a per-request `_retry` mark, server replies, the rejections a
 * request can end in, and axios's rule that only 2xx statuses resolve.
 */
module Http {
  import opened Maybe
  import opened JsValue

  /** The backend operations the client calls. Their URL strings are not modelled. */
  datatype Endpoint =
    | Register | Login | ForgotPassword | VerifyEmail | ResendCode
    | VerifyForgotPassword | ChangePassword | Logout | WhoAmI | TokenRefresh

  type Headers = map<string, string>

  const AuthorizationHeader := "Authorization"

  /** The header value of a bearer credential. */
  function Bearer(token: string): string {
    "Bearer " + token
  }

  /** A request config: what is sent, with the `_retry` mark the response interceptor sets. */
  datatype Request = Request(endpoint: Endpoint, body: Value, headers: Headers, retry: bool)

  datatype Response = Response(status: int, data: Value)

  /** What the server does with one request: answers with a status and a body, or never answers. */
  datatype Reply = Answer(response: Response) | NoAnswer

  /** Why an operation's promise rejects. */
  datatype Error =
      /** an axios error: the request's config and the response, if one arrived */
    | Rejected(config: Request, response: Option<Response>)
      /** `new Error(message)` thrown by the client code itself */
    | Thrown(message: string)
      /** a property read on `null` or `undefined` */
    | TypeError
      /** `JSON.parse` on text that is not a serialised value */
    | SyntaxError
      /** the storage layer refused an operation */
    | StorageFailure

  datatype Result<+T> = Ok(value: T) | Err(error: Error)

  /** axios's default `validateStatus`: only 2xx responses resolve. */
  predicate Resolves(status: int) {
    200 <= status < 300
  }

  /** The outcome of sending `req` and getting `reply`, before any interceptor sees it. */
  function Dispatch(req: Request, reply: Reply): (r: Result<Response>)
    ensures r.Ok? <==> reply.Answer? && Resolves(reply.response.status)
    ensures r.Ok? ==> r.value == reply.response
    ensures r.Err? ==> r.error == Rejected(req, if reply.Answer? then Some(reply.response) else None)
  {
    match reply
    case NoAnswer => Err(Rejected(req, None))
    case Answer(resp) => if Resolves(resp.status) then Ok(resp) else Err(Rejected(req, Some(resp)))
  }

  /** `error.response?.status === 401`. */
  predicate IsUnauthorized(e: Error) {
    e.Rejected? && e.response.Some? && e.response.value.status == 401
  }

  /** Of the errors a send can end in, exactly those where the server answered 401 count as unauthorised; a 2xx never does. */
  lemma UnauthorizedIffAnswered401(req: Request, reply: Reply)
    ensures Dispatch(req, reply).Err? && IsUnauthorized(Dispatch(req, reply).error)
      <==> reply.Answer? && reply.response.status == 401
  {
  }
}

=== FILE: js_value.dfy ===
/**
 * JavaScript values as far as the session code inspects them: the payloads the
 * backend returns, the bodies the client posts, and the values it writes to
 * storage. Objects are insertion-ordered lists of own properties, as JavaScript
 * objects are; numbers are integers (NaN, -0 and fractions are not modelled).
 */
module JsValue {
  import opened Maybe

  datatype Value =
    | Undefined
    | Null
    | Bool(b: bool)
    | Num(n: int)
    | Str(s: string)
    | Obj(props: Props)

  /** Own properties in insertion order. A later binding of a key shadows an earlier one. */
  datatype Props = Empty | Prop(key: string, val: Value, rest: Props)

  /** JavaScript truthiness: what `if (v)`, `v || w` and `!v` test. */
  predicate Truthy(v: Value) {
    match v
    case Undefined => false
    case Null => false
    case Bool(b) => b
    case Num(n) => n != 0
    case Str(s) => s != ""
    case Obj(_) => true
  }

  /** `null` or `undefined`: reading a property of such a value throws a TypeError. */
  predicate Nullish(v: Value) {
    v.Undefined? || v.Null?
  }

  /** The own property `key` of a property list, the last binding winning. */
  function Own(ps: Props, key: string): (r: Option<Value>)
    ensures ps.Empty? ==> r.None?
    ensures ps.Prop? && ps.key == key ==> r.Some?
    ensures ps.Prop? && ps.key != key ==> r == Own(ps.rest, key)
    ensures ps.Prop? && Own(ps.rest, key).None? ==> (r.Some? <==> ps.key == key) && (r.Some? ==> r.value == ps.val)
  {
    match ps
    case Empty => None
    case Prop(k, v, rest) =>
      var later := Own(rest, key);
      if later.Some? then later else if k == key then Some(v) else None
  }

  /** The property read `v.key` on a value that is not nullish; a missing property reads as `undefined`. */
  function Member(v: Value, key: string): (r: Value)
    requires !Nullish(v)
    ensures !v.Obj? ==> r == Undefined
  {
    match v
    case Obj(ps) => (match Own(ps, key) case Some(x) => x case None => Undefined)
    case _ => Undefined
  }

  /** The optional-chaining read `v?.key`: `undefined` when `v` is nullish. */
  function OptMember(v: Value, key: string): (r: Value)
    ensures Nullish(v) ==> r == Undefined
    ensures !Nullish(v) ==> r == Member(v, key)
  {
    if Nullish(v) then Undefined else Member(v, key)
  }

  /** JavaScript `a || b`: the first operand when it is truthy, else the second. */
  function Or(a: Value, b: Value): (r: Value)
    ensures Truthy(a) ==> r == a
    ensures !Truthy(a) ==> r == b
    ensures Truthy(r) <==> Truthy(a) || Truthy(b)
  {
    if Truthy(a) then a else b
  }

  /** An object literal with one property. */
  function Obj1(k1: string, v1: Value): (r: Value)
    ensures OptMember(r, k1) == v1
  {
    Obj(Prop(k1, v1, Empty))
  }

  /** An object literal with two properties, in this order. */
  function Obj2(k1: string, v1: Value, k2: string, v2: Value): (r: Value)
    ensures OptMember(r, k2) == v2
    ensures k1 != k2 ==> OptMember(r, k1) == v1
  {
    Obj(Prop(k1, v1, Prop(k2, v2, Empty)))
  }

  /** An object literal with three properties, in this order. */
  function Obj3(k1: string, v1: Value, k2: string, v2: Value, k3: string, v3: Value): (r: Value)
    ensures OptMember(r, k3) == v3
    ensures k2 != k3 ==> OptMember(r, k2) == v2
    ensures k1 != k2 && k1 != k3 ==> OptMember(r, k1) == v1
  {
    Obj(Prop(k1, v1, Prop(k2, v2, Prop(k3, v3, Empty))))
  }

  /** An object literal with four properties, in this order. */
  function Obj4(k1: string, v1: Value, k2: string, v2: Value, k3: string, v3: Value, k4: string, v4: Value): (r: Value)
    ensures OptMember(r, k4) == v4
    ensures k3 != k4 ==> OptMember(r, k3) == v3
    ensures k2 != k3 && k2 != k4 ==> OptMember(r, k2) == v2
    ensures k1 != k2 && k1 != k3 && k1 != k4 ==> OptMember(r, k1) == v1
  {
    Obj(Prop(k1, v1, Prop(k2, v2, Prop(k3, v3, Prop(k4, v4, Empty)))))
  }

  function DigitChar(d: nat): char
    requires d < 10
  {
    "0123456789"[d]
  }

  /** The decimal numeral of a natural number. */
  function Decimal(n: nat): string
    decreases n
  {
    if n < 10 then [DigitChar(n)] else Decimal(n / 10) + [DigitChar(n % 10)]
  }

  /** The string a template literal `${v}` produces for `v`. */
  function Display(v: Value): (r: string)
    ensures v.Str? ==> r == v.s
  {
    match v
    case Undefined => "undefined"
    case Null => "null"
    case Bool(b) => if b then "true" else "false"
    case Num(n) => if n < 0 then "-" + Decimal(-n) else Decimal(n)
    case Str(s) => s
    case Obj(_) => "[object Object]"
  }
}

=== FILE: json_codec.dfy ===
/**
 * The serialisation used for the cached `user` profile: `JSON.stringify` on the
 * way into storage and `JSON.parse` on the way out. The model does not follow
 * JSON's concrete syntax; it uses a small self-delimiting text format with the
 * properties the session code relies on: serialising `undefined` yields no
 * string (as `JSON.stringify(undefined)` yields `undefined`), parsing a
 * serialised value gives that value back, and text that is not a serialised
 * value does not parse (the `SyntaxError` of `JSON.parse`).
 *
 * The round trip here is exact for every value. JSON's is exact only for
 * values as they come out of `JSON.parse`: it drops object properties whose
 * value is `undefined` and keeps one binding per key. The values the session
 * code caches are server payloads, which arrive parsed and so have neither.
 */
module JsonCodec {
  import opened Maybe
  import opened JsValue

  /** One character of a quoted string: the quote and the backslash are escaped. */
  function Esc(c: char): string {
    if c == '"' || c == '\\' then ['\\', c] else [c]
  }

  /** A string's characters, escaped, followed by the closing quote. */
  function Quote(s: string): (r: string)
    ensures |r| > |s|
    decreases |s|
  {
    if s == [] then "\"" else Esc(s[0]) + Quote(s[1..])
  }

  /** `k` copies of the digit '1'. */
  function Ones(k: nat): (r: string)
    ensures |r| == k
  {
    if k == 0 then [] else "1" + Ones(k - 1)
  }

  function Encode(v: Value): string
    decreases v
  {
    match v
    case Undefined => "u"
    case Null => "n"
    case Bool(b) => if b then "t" else "f"
    case Num(n) => (if n < 0 then "i-" + Ones(-n) else "i+" + Ones(n)) + ";"
    case Str(s) => "s" + Quote(s)
    case Obj(ps) => "{" + EncodeProps(ps)
  }

  function EncodeProps(ps: Props): string
    decreases ps
  {
    match ps
    case Empty => "}"
    case Prop(k, v, rest) => "," + Quote(k) + Encode(v) + EncodeProps(rest)
  }

  /** Reads the characters of a quoted string up to its unescaped closing quote; only the quote and the backslash may be escaped. */
  function ParseQuoted(s: string): (r: Option<(string, string)>)
    ensures r.Some? ==> |r.value.1| < |s|
    decreases |s|
  {
    if |s| == 0 then None
    else if s[0] == '"' then Some(([], s[1..]))
    else if s[0] == '\\' then
      if |s| < 2 || (s[1] != '"' && s[1] != '\\') then None
      else match ParseQuoted(s[2..])
        case None => None
        case Some((t, rest)) => Some(([s[1]] + t, rest))
    else match ParseQuoted(s[1..])
      case None => None
      case Some((t, rest)) => Some(([s[0]] + t, rest))
  }

  /** Counts the leading '1' digits up to the terminating ';'. */
  function ParseOnes(s: string): (r: Option<(nat, string)>)
    ensures r.Some? ==> |r.value.1| < |s|
    decreases |s|
  {
    if |s| == 0 then None
    else if s[0] == ';' then Some((0, s[1..]))
    else if s[0] == '1' then
      match ParseOnes(s[1..])
      case None => None
      case Some((k, rest)) => Some((k + 1, rest))
    else None
  }

  /** Reads a signed count of ones, the text of a number after its 'i'; "-0" is refused. */
  function ParseNum(s: string): (r: Option<(Value, string)>)
    ensures r.Some? ==> |r.value.1| < |s|
  {
    if |s| == 0 || (s[0] != '-' && s[0] != '+') then None
    else match ParseOnes(s[1..])
      case None => None
      case Some((k, rest)) =>
        var n: int := k;
        if s[0] == '-' && k == 0 then None else Some((Num(if s[0] == '-' then -n else n), rest))
  }

  /** Reads one serialised value from the front of `s`, returning it and the unread rest. */
  function ParseValue(s: string): (r: Option<(Value, string)>)
    ensures r.Some? ==> |r.value.1| < |s|
    decreases |s|, 1
  {
    if |s| == 0 then None
    else if s[0] == 'u' then Some((Undefined, s[1..]))
    else if s[0] == 'n' then Some((Null, s[1..]))
    else if s[0] == 't' then Some((Bool(true), s[1..]))
    else if s[0] == 'f' then Some((Bool(false), s[1..]))
    else if s[0] == 'i' then ParseNum(s[1..])
    else if s[0] == 's' then
      match ParseQuoted(s[1..])
      case None => None
      case Some((t, rest)) => Some((Str(t), rest))
    else if s[0] == '{' then
      match ParseProps(s[1..])
      case None => None
      case Some((ps, rest)) => Some((Obj(ps), rest))
    else None
  }

  function ParseProps(s: string): (r: Option<(Props, string)>)
    ensures r.Some? ==> |r.value.1| < |s|
    decreases |s|, 0
  {
    if |s| == 0 then None
    else if s[0] == '}' then Some((Empty, s[1..]))
    else if s[0] == ',' then
      match ParseQuoted(s[1..])
      case None => None
      case Some((k, rest1)) =>
        match ParseValue(rest1)
        case None => None
        case Some((v, rest2)) =>
          match ParseProps(rest2)
          case None => None
          case Some((ps, rest3)) => Some((Prop(k, v, ps), rest3))
    else None
  }

  /** `JSON.stringify(v)`: no string for `undefined`. */
  function Serialize(v: Value): (r: Option<string>)
    ensures r.None? <==> v == Undefined
    ensures r.Some? ==> Parse(r.value) == Some(v)
  {
    if v == Undefined then None
    else
      ValueRoundTrip(v, []);
      assert Encode(v) + [] == Encode(v);
      Some(Encode(v))
  }

  /** `JSON.parse(s)`: `None` stands for the thrown `SyntaxError`. */
  function Parse(s: string): (r: Option<Value>)
    ensures r.Some? ==> r.value != Undefined
    ensures r.Some? ==> s == Encode(r.value)
  {
    match ParseValue(s)
    case Some((v, rest)) =>
      if rest == [] && v != Undefined then
        ValueExact(s);
        assert s == Encode(v) + [];
        Some(v)
      else None
    case None => None
  }

  lemma {:induction false} QuoteRoundTrip(s: string, rest: string)
    ensures ParseQuoted(Quote(s) + rest) == Some((s, rest))
    decreases |s|
  {
    if s == [] {
      assert Quote(s) + rest == ['"'] + rest;
    } else {
      var c := s[0];
      QuoteRoundTrip(s[1..], rest);
      assert Quote(s) + rest == Esc(c) + (Quote(s[1..]) + rest);
      assert [c] + s[1..] == s;
      if c == '"' || c == '\\' {
        assert (Esc(c) + (Quote(s[1..]) + rest))[2..] == Quote(s[1..]) + rest;
      } else {
        assert (Esc(c) + (Quote(s[1..]) + rest))[1..] == Quote(s[1..]) + rest;
      }
    }
  }

  lemma {:induction false} OnesRoundTrip(k: nat, rest: string)
    ensures ParseOnes(Ones(k) + ";" + rest) == Some((k, rest))
  {
    if k == 0 {
      assert Ones(k) + ";" + rest == [';'] + rest;
    } else {
      OnesRoundTrip(k - 1, rest);
      assert Ones(k) + ";" + rest == ['1'] + (Ones(k - 1) + ";" + rest);
    }
  }

  lemma {:induction false} ValueRoundTrip(v: Value, rest: string)
    ensures ParseValue(Encode(v) + rest) == Some((v, rest))
    decreases v
  {
    if v.Obj? {
      var s := Encode(v) + rest;
      PropsRoundTrip(v.props, rest);
      assert s == ['{'] + (EncodeProps(v.props) + rest);
      assert s[0] == '{' && s[1..] == EncodeProps(v.props) + rest;
    } else if v.Num? {
      NumRoundTrip(v.n, rest);
    } else if v.Str? {
      StrRoundTrip(v.s, rest);
    } else {
      ConstantRoundTrip(v, rest);
    }
  }

  lemma ConstantRoundTrip(v: Value, rest: string)
    requires v.Undefined? || v.Null? || v.Bool?
    ensures ParseValue(Encode(v) + rest) == Some((v, rest))
  {
    var s := Encode(v) + rest;
    assert s[1..] == rest;
  }

  lemma StrRoundTrip(t: string, rest: string)
    ensures ParseValue(Encode(Str(t)) + rest) == Some((Str(t), rest))
  {
    var s := Encode(Str(t)) + rest;
    QuoteRoundTrip(t, rest);
    assert s == ['s'] + (Quote(t) + rest);
    assert s[0] == 's' && s[1..] == Quote(t) + rest;
  }

  lemma NumRoundTrip(n: int, rest: string)
    ensures ParseValue(Encode(Num(n)) + rest) == Some((Num(n), rest))
  {
    var s := Encode(Num(n)) + rest;
    var sign := if n < 0 then '-' else '+';
    var k: nat := if n < 0 then -n else n;
    OnesRoundTrip(k, rest);
    assert s == ['i', sign] + (Ones(k) + ";" + rest);
    assert s[0] == 'i' && s[1] == sign && s[2..] == Ones(k) + ";" + rest;
  }

  lemma {:induction false} PropsRoundTrip(ps: Props, rest: string)
    ensures ParseProps(EncodeProps(ps) + rest) == Some((ps, rest))
    decreases ps
  {
    var s := EncodeProps(ps) + rest;
    if ps.Empty? {
      assert s == ['}'] + rest;
    } else {
      var afterValue := EncodeProps(ps.rest) + rest;
      var afterKey := Encode(ps.val) + afterValue;
      PropsRoundTrip(ps.rest, rest);
      ValueRoundTrip(ps.val, afterValue);
      QuoteRoundTrip(ps.key, afterKey);
      PropLayout(ps, rest);
      PropStep(s, ps.key, ps.val, ps.rest, afterKey, afterValue, rest);
    }
  }

  /** Where the key, the value and the remaining properties sit in an encoded property list. */
  lemma PropLayout(ps: Props, rest: string)
    requires ps.Prop?
    ensures |EncodeProps(ps) + rest| > 0 && (EncodeProps(ps) + rest)[0] == ','
    ensures (EncodeProps(ps) + rest)[1..] == Quote(ps.key) + (Encode(ps.val) + (EncodeProps(ps.rest) + rest))
  {
    var s := EncodeProps(ps) + rest;
    assert s == [','] + (Quote(ps.key) + (Encode(ps.val) + (EncodeProps(ps.rest) + rest)));
  }

  /** One property read by `ParseProps`, given what its three sub-parsers return. */
  lemma PropStep(s: string, k: string, v: Value, tail: Props, afterKey: string, afterValue: string, rest: string)
    requires |s| > 0 && s[0] == ','
    requires ParseQuoted(s[1..]) == Some((k, afterKey))
    requires ParseValue(afterKey) == Some((v, afterValue))
    requires ParseProps(afterValue) == Some((tail, rest))
    ensures ParseProps(s) == Some((Prop(k, v, tail), rest))
  {
  }

  /** Parsing what was serialised gives back the value, for every value that serialises. */
  lemma SerializeRoundTrip(v: Value)
    requires v != Undefined
    ensures Serialize(v).Some? && Parse(Serialize(v).value) == Some(v)
  {
    ValueRoundTrip(v, []);
    assert Encode(v) + [] == Encode(v);
  }

  /** The quoted-string reader accepts only what `Quote` writes: the text read is the quote of the string returned. */
  lemma {:induction false} QuotedExact(s: string)
    requires ParseQuoted(s).Some?
    ensures s == Quote(ParseQuoted(s).value.0) + ParseQuoted(s).value.1
    decreases |s|
  {
    var (t, rest) := ParseQuoted(s).value;
    if s[0] == '"' {
      assert s == ['"'] + s[1..];
    } else if s[0] == '\\' {
      QuotedExact(s[2..]);
      assert t == [s[1]] + ParseQuoted(s[2..]).value.0;
      assert Quote(t) == Esc(s[1]) + Quote(t[1..]);
      assert s == [s[0], s[1]] + s[2..];
    } else {
      QuotedExact(s[1..]);
      assert t == [s[0]] + ParseQuoted(s[1..]).value.0;
      assert Quote(t) == Esc(s[0]) + Quote(t[1..]);
      assert s == [s[0]] + s[1..];
    }
  }

  /** The numeral reader accepts only what `Encode` writes for a number. */
  lemma {:induction false} OnesExact(s: string)
    requires ParseOnes(s).Some?
    ensures s == Ones(ParseOnes(s).value.0) + ";" + ParseOnes(s).value.1
    decreases |s|
  {
    if s[0] == ';' {
      assert s == [';'] + s[1..];
    } else {
      OnesExact(s[1..]);
      assert s == ['1'] + s[1..];
    }
  }

  /** The value reader accepts only serialised values: what it reads is the encoding of the value it returns. */
  lemma {:induction false} ValueExact(s: string)
    requires ParseValue(s).Some?
    ensures s == Encode(ParseValue(s).value.0) + ParseValue(s).value.1
    decreases |s|, 1
  {
    var (v, rest) := ParseValue(s).value;
    if s[0] == 'i' {
      NumExact(s[1..]);
      assert s == ['i'] + s[1..];
    } else if s[0] == 's' {
      QuotedExact(s[1..]);
      assert s == [s[0]] + s[1..];
    } else if s[0] == '{' {
      PropsExact(s[1..]);
      assert s == [s[0]] + s[1..];
    } else {
      assert s == [s[0]] + s[1..];
    }
  }

  /** The property-list reader accepts only what `EncodeProps` writes. */
  lemma {:induction false} PropsExact(s: string)
    requires ParseProps(s).Some?
    ensures s == EncodeProps(ParseProps(s).value.0) + ParseProps(s).value.1
    decreases |s|, 0
  {
    if s[0] == '}' {
      assert s == ['}'] + s[1..];
    } else {
      var (k, rest1) := ParseQuoted(s[1..]).value;
      var (v, rest2) := ParseValue(rest1).value;
      QuotedExact(s[1..]);
      ValueExact(rest1);
      PropsExact(rest2);
      var (ps, rest3) := ParseProps(rest2).value;
      assert ParseProps(s).value == (Prop(k, v, ps), rest3);
      PropText(s, k, v, ps, rest1, rest2, rest3);
    }
  }

  /** The text of one property followed by the rest of the list, assembled from its three parts. */
  lemma PropText(s: string, k: string, v: Value, ps: Props, rest1: string, rest2: string, rest3: string)
    requires |s| > 0 && s[0] == ','
    requires s[1..] == Quote(k) + rest1
    requires rest1 == Encode(v) + rest2
    requires rest2 == EncodeProps(ps) + rest3
    ensures s == EncodeProps(Prop(k, v, ps)) + rest3
  {
    assert s == [','] + s[1..];
    assert EncodeProps(Prop(k, v, ps)) + rest3 == [','] + (Quote(k) + (Encode(v) + (EncodeProps(ps) + rest3)));
  }

  /** A number read by `ParseNum` was written as its encoding, less the leading 'i'. */
  lemma NumExact(s: string)
    requires ParseNum(s).Some?
    ensures ['i'] + s == Encode(ParseNum(s).value.0) + ParseNum(s).value.1
  {
    OnesExact(s[1..]);
    var (k, rest) := ParseOnes(s[1..]).value;
    var n: int := k;
    assert s == [s[0]] + (Ones(k) + ";" + rest);
    if s[0] == '-' {
      assert Encode(Num(-n)) == "i-" + Ones(k) + ";";
    } else {
      assert Encode(Num(n)) == "i+" + Ones(k) + ";";
    }
  }
}

=== FILE: maybe.dfy ===
/** The optional value used wherever the source reads something that may be absent. */
module Maybe {

  datatype Option<+T> = None | Some(value: T)
}

=== FILE: password_validation.dfy ===
/**
 * The password rules of the registration and change-password forms
 * (utils/passwordValidation.ts): a classifier that returns the message of the
 * first rule a candidate breaks, or the empty string, and the regular
 * expression `PASSWORD_REGEX` that states the same rules in one pattern.
 */
module PasswordValidation {

  const MinLength: nat := 8

  const TooShort := "Password must be at least 8 characters long"
  const NoUpper := "Password must include at least one uppercase letter"
  const NoLower := "Password must include at least one lowercase letter"
  const NoDigit := "Password must include at least one number"
  const NoSpecial := "Password must include at least one special character"

  /** Everything the classifier can answer: the empty string means "valid". */
  const Messages: set<string> := {"", TooShort, NoUpper, NoLower, NoDigit, NoSpecial}

  /**
   * The members of the class `[!@#$%^&*()_+\-=[\]{};':"\\|,.<>/?]`. Backtick,
   * tilde and space are not among them.
   */
  const SpecialChars: set<char> := {
    '!', '@', '#', '$', '%', '^', '&', '*', '(', ')', '_', '+', '-', '=', '[',
    ']', '{', '}', ';', '\'', ':', '"', '\\', '|', ',', '.', '<', '>', '/', '?'
  }

  /** The one-character classes the rules test for: `[A-Z]`, `[a-z]`, `\d` and the special class. */
  datatype CharClass = UpperCase | LowerCase | Digits | Specials

  predicate InClass(c: char, cls: CharClass) {
    match cls
    case UpperCase => 'A' <= c <= 'Z'
    case LowerCase => 'a' <= c <= 'z'
    case Digits => '0' <= c <= '9'
    case Specials => c in SpecialChars
  }

  /** `/[cls]/.test(s)`: some character of `s` belongs to the class. */
  predicate HasSome(s: string, cls: CharClass) {
    exists i :: 0 <= i < |s| && InClass(s[i], cls)
  }

  /** The rules in the order the classifier checks them. */
  datatype Rule = LongEnough | Contains(cls: CharClass)

  const Rules: seq<Rule> := [LongEnough, Contains(UpperCase), Contains(LowerCase), Contains(Digits), Contains(Specials)]

  predicate Passes(rule: Rule, s: string) {
    match rule
    case LongEnough => |s| >= MinLength
    case Contains(cls) => HasSome(s, cls)
  }

  function MessageOf(rule: Rule): string {
    match rule
    case LongEnough => TooShort
    case Contains(UpperCase) => NoUpper
    case Contains(LowerCase) => NoLower
    case Contains(Digits) => NoDigit
    case Contains(Specials) => NoSpecial
  }

  /** A password every rule accepts. */
  predicate IsValid(s: string) {
    && |s| >= MinLength
    && HasSome(s, UpperCase)
    && HasSome(s, LowerCase)
    && HasSome(s, Digits)
    && HasSome(s, Specials)
  }

  /**
   * `getPasswordValidationMessage(s)`. The length rule is checked first, so a
   * short password gets the length message whatever it contains.
   */
  function ValidationMessage(s: string): (m: string)
    ensures m in Messages
    ensures m == "" <==> IsValid(s)
    ensures |s| < MinLength ==> m == TooShort
  {
    if |s| < MinLength then TooShort
    else if !HasSome(s, UpperCase) then NoUpper
    else if !HasSome(s, LowerCase) then NoLower
    else if !HasSome(s, Digits) then NoDigit
    else if !HasSome(s, Specials) then NoSpecial
    else ""
  }

  /** `/[cls]/.test(s)` as the scan it performs. */
  method TestClass(s: string, cls: CharClass) returns (found: bool)
    ensures found <==> HasSome(s, cls)
  {
    found := false;
    var i := 0;
    while i < |s|
      invariant 0 <= i <= |s|
      invariant !found
      invariant forall j :: 0 <= j < i ==> !InClass(s[j], cls)
    {
      if InClass(s[i], cls) {
        found := true;
        return;
      }
      i := i + 1;
    }
  }

  /**
   * The classifier as the source writes it: a sequence of early returns, each
   * running one class scan. Its answer is the one the rule table prescribes:
   * empty when every rule passes, else the message of the first rule broken.
   */
  method GetPasswordValidationMessage(s: string) returns (m: string)
    ensures m == "" <==> forall j :: 0 <= j < |Rules| ==> Passes(Rules[j], s)
    ensures forall k :: 0 <= k < |Rules| && (forall j :: 0 <= j < k ==> Passes(Rules[j], s)) && !Passes(Rules[k], s) ==>
      m == MessageOf(Rules[k])
  {
    if |s| < MinLength {
      m := TooShort;
    } else {
      var upper := TestClass(s, UpperCase);
      if !upper {
        m := NoUpper;
      } else {
        var lower := TestClass(s, LowerCase);
        if !lower {
          m := NoLower;
        } else {
          var digit := TestClass(s, Digits);
          if !digit {
            m := NoDigit;
          } else {
            var special := TestClass(s, Specials);
            m := if special then "" else NoSpecial;
          }
        }
      }
    }
    assert m == ValidationMessage(s);
    EmptyIffAllRulesPass(s);
    forall k | 0 <= k < |Rules| && (forall j :: 0 <= j < k ==> Passes(Rules[j], s)) && !Passes(Rules[k], s)
      ensures m == MessageOf(Rules[k])
    {
      FirstFailingRuleWins(s, k);
    }
  }

  /** The message is empty exactly when every rule of the table passes. */
  lemma EmptyIffAllRulesPass(s: string)
    ensures ValidationMessage(s) == "" <==> forall j :: 0 <= j < |Rules| ==> Passes(Rules[j], s)
  {
    if forall j :: 0 <= j < |Rules| ==> Passes(Rules[j], s) {
      assert Passes(Rules[0], s) && Passes(Rules[1], s) && Passes(Rules[2], s);
      assert Passes(Rules[3], s) && Passes(Rules[4], s);
    }
  }

  /** The reported message belongs to the first rule, in table order, that the password breaks. */
  lemma FirstFailingRuleWins(s: string, k: nat)
    requires k < |Rules|
    requires forall j :: 0 <= j < k ==> Passes(Rules[j], s)
    requires !Passes(Rules[k], s)
    ensures ValidationMessage(s) == MessageOf(Rules[k])
  {
    if k > 0 { assert Passes(Rules[0], s); }
    if k > 1 { assert Passes(Rules[1], s); }
    if k > 2 { assert Passes(Rules[2], s); }
    if k > 3 { assert Passes(Rules[3], s); }
  }

  /** Each rule is a length lower bound or an "at least one" test, so appending keeps a valid password valid. */
  lemma AppendKeepsValid(s: string, t: string)
    requires ValidationMessage(s) == ""
    ensures ValidationMessage(s + t) == ""
  {
    forall cls: CharClass | HasSome(s, cls)
      ensures HasSome(s + t, cls)
    {
      var i :| 0 <= i < |s| && InClass(s[i], cls);
      assert (s + t)[i] == s[i];
    }
  }

  /** Tilde is not a special character: "Abcdefg1~" passes every rule but the last. */
  lemma TildeIsNotSpecial()
    ensures ValidationMessage("Abcdefg1~") == NoSpecial
  {
    var s := "Abcdefg1~";
    assert InClass(s[0], UpperCase) && InClass(s[1], LowerCase) && InClass(s[7], Digits);
    forall i | 0 <= i < |s|
      ensures !InClass(s[i], Specials)
    {
      assert s[i] in ['A', 'b', 'c', 'd', 'e', 'f', 'g', '1', '~'];
    }
  }

  /** Neither backtick nor space is a special character either. */
  lemma BacktickAndSpaceAreNotSpecial()
    ensures !InClass('`', Specials) && !InClass(' ', Specials)
  {
  }

  /** A line terminator: what `.` in a pattern without the `s` flag does not match. */
  predicate IsLineTerminator(c: char) {
    c == '\n' || c == '\r' || c == '\U{2028}' || c == '\U{2029}'
  }

  /** `(?=.*[cls])` at the start of the input: a class member reached across non-terminators only. */
  predicate LookaheadFinds(s: string, cls: CharClass) {
    exists k :: 0 <= k < |s| && InClass(s[k], cls) && forall j :: 0 <= j < k ==> !IsLineTerminator(s[j])
  }

  /** `.{8,}$` at the start of the input: at least eight characters, none of them a line terminator. */
  predicate DotsToEnd(s: string) {
    |s| >= MinLength && forall j :: 0 <= j < |s| ==> !IsLineTerminator(s[j])
  }

  /**
   * `PASSWORD_REGEX.test(s)`, anchored at both ends, lookaheads in the
   * pattern's order. Since `.{8,}$` must reach the end, a match is exactly
   * eight or more characters without a line terminator containing a member
   * of each of the four classes.
   */
  predicate RegexMatches(s: string): (b: bool)
    ensures b <==> DotsToEnd(s) && HasSome(s, LowerCase) && HasSome(s, UpperCase) && HasSome(s, Digits) && HasSome(s, Specials)
  {
    LookaheadsReduce(s);
    && LookaheadFinds(s, LowerCase)
    && LookaheadFinds(s, UpperCase)
    && LookaheadFinds(s, Digits)
    && LookaheadFinds(s, Specials)
    && DotsToEnd(s)
  }

  /** Where `.{8,}$` holds, each lookahead is a plain search for a class member. */
  lemma LookaheadsReduce(s: string)
    ensures DotsToEnd(s) ==> forall cls: CharClass :: LookaheadFinds(s, cls) <==> HasSome(s, cls)
  {
    if DotsToEnd(s) {
      forall cls: CharClass
        ensures LookaheadFinds(s, cls) <==> HasSome(s, cls)
      {
        if HasSome(s, cls) {
          var k :| 0 <= k < |s| && InClass(s[k], cls);
          assert forall j :: 0 <= j < k ==> !IsLineTerminator(s[j]);
        }
      }
    }
  }

  /** On text without line terminators the pattern and the classifier agree. */
  lemma RegexAgreesWithClassifier(s: string)
    requires forall j :: 0 <= j < |s| ==> !IsLineTerminator(s[j])
    ensures RegexMatches(s) <==> ValidationMessage(s) == ""
  {
    forall cls: CharClass
      ensures LookaheadFinds(s, cls) <==> HasSome(s, cls)
    {
      if HasSome(s, cls) {
        var k :| 0 <= k < |s| && InClass(s[k], cls);
        assert forall j :: 0 <= j < k ==> !IsLineTerminator(s[j]);
      }
    }
  }

  /** Everywhere, a match of the pattern implies an empty message. */
  lemma RegexMatchIsValid(s: string)
    requires RegexMatches(s)
    ensures ValidationMessage(s) == ""
  {
    RegexAgreesWithClassifier(s);
  }

  /** The converse fails across a line break: the classifier accepts "Abcdefg1!\n", the pattern does not. */
  lemma LineBreakSplitsRegexFromClassifier()
    ensures ValidationMessage("Abcdefg1!\n") == ""
    ensures !RegexMatches("Abcdefg1!\n")
  {
    var s := "Abcdefg1!\n";
    assert InClass(s[0], UpperCase) && InClass(s[1], LowerCase) && InClass(s[7], Digits);
    assert InClass(s[8], Specials);
    assert IsLineTerminator(s[9]);
  }
}

=== FILE: text.dfy ===
/**
 * The input normalisation the session operations apply before posting:
 * `String.prototype.trim` and `toLocaleLowerCase`.
 */
module Text {

  /**
   * The code points `trim` removes: ECMAScript's WhiteSpace (tab, vertical tab,
   * form feed, no-break space, byte order mark and the space separators) and
   * its LineTerminators (line feed, carriage return, U+2028, U+2029).
   */
  predicate IsTrimmable(c: char) {
    || c == '\t' || c == '\n' || c == '\U{000B}' || c == '\U{000C}' || c == '\r'
    || c == ' ' || c == '\U{00A0}' || c == '\U{1680}' || ('\U{2000}' <= c <= '\U{200A}')
    || c == '\U{2028}' || c == '\U{2029}' || c == '\U{202F}' || c == '\U{205F}'
    || c == '\U{3000}' || c == '\U{FEFF}'
  }

  /** How many trimmable characters `s` starts with. */
  function LeadingTrimmable(s: string): (n: nat)
    ensures n <= |s|
    ensures forall k :: 0 <= k < n ==> IsTrimmable(s[k])
    ensures n == |s| || !IsTrimmable(s[n])
  {
    if s == [] || !IsTrimmable(s[0]) then 0 else 1 + LeadingTrimmable(s[1..])
  }

  /** Drops the leading trimmable characters. */
  function TrimStart(s: string): (r: string)
    ensures r == s[LeadingTrimmable(s)..]
    ensures r == [] || !IsTrimmable(r[0])
  {
    s[LeadingTrimmable(s)..]
  }

  /** Drops the trailing trimmable characters: the result is the prefix ending at the last other character. */
  function TrimEnd(s: string): (r: string)
    ensures |r| <= |s| && r == s[..|r|]
    ensures forall k :: |r| <= k < |s| ==> IsTrimmable(s[k])
    ensures r == [] || !IsTrimmable(r[|r| - 1])
  {
    if s == [] || !IsTrimmable(s[|s| - 1]) then s else TrimEnd(s[..|s| - 1])
  }

  /**
   * `s.trim()`: the part of `s` that starts after its leading trimmable
   * characters and is followed only by trimmable characters.
   */
  function Trim(s: string): (r: string)
    ensures LeadingTrimmable(s) + |r| <= |s|
    ensures r == s[LeadingTrimmable(s)..LeadingTrimmable(s) + |r|]
    ensures forall k :: LeadingTrimmable(s) + |r| <= k < |s| ==> IsTrimmable(s[k])
    ensures r == [] || (!IsTrimmable(r[0]) && !IsTrimmable(r[|r| - 1]))
  {
    TrimEnd(TrimStart(s))
  }

  /** The lower-case form of one character: ASCII letters only (the locale rules are not modelled). */
  function LowerChar(c: char): (d: char)
    ensures !('A' <= d <= 'Z')
    ensures ('A' <= c <= 'Z') || d == c
  {
    if 'A' <= c <= 'Z' then (c as int + 32) as char else c
  }

  /** `s.toLocaleLowerCase()`, character by character. */
  function ToLower(s: string): (r: string)
    ensures |r| == |s|
    ensures forall i :: 0 <= i < |s| ==> r[i] == LowerChar(s[i])
  {
    if s == [] then [] else [LowerChar(s[0])] + ToLower(s[1..])
  }

  /** `email.trim().toLocaleLowerCase()`, the form every email except the login one is posted in. */
  function NormalizeEmail(email: string): (r: string)
    ensures LeadingTrimmable(email) + |r| <= |email|
    ensures forall k :: LeadingTrimmable(email) + |r| <= k < |email| ==> IsTrimmable(email[k])
    ensures r == [] || (!IsTrimmable(r[0]) && !IsTrimmable(r[|r| - 1]))
    ensures forall i :: 0 <= i < |r| ==> !('A' <= r[i] <= 'Z')
    ensures forall i :: 0 <= i < |r| ==> r[i] == LowerChar(email[LeadingTrimmable(email) + i])
  {
    ToLower(Trim(email))
  }

  /** Trimming a trimmed string changes nothing. */
  lemma TrimIdempotent(s: string)
    ensures Trim(Trim(s)) == Trim(s)
  {
    TrimmedIsFixed(Trim(s));
  }

  /** A string with no trimmable character at either end is its own trim. */
  lemma TrimmedIsFixed(t: string)
    requires t == [] || (!IsTrimmable(t[0]) && !IsTrimmable(t[|t| - 1]))
    ensures Trim(t) == t
  {
    assert TrimStart(t) == t;
    assert TrimEnd(t) == t;
  }

  /** Lower-casing is idempotent. */
  lemma ToLowerIdempotent(s: string)
    ensures ToLower(ToLower(s)) == ToLower(s)
  {
  }

  /** Normalising a normalised email changes nothing, so posting it again is harmless. */
  lemma NormalizeEmailIdempotent(email: string)
    ensures NormalizeEmail(NormalizeEmail(email)) == NormalizeEmail(email)
  {
    var t := Trim(email);
    var l := ToLower(t);
    assert l == [] || (!IsTrimmable(l[0]) && !IsTrimmable(l[|l| - 1])) by {
      if l != [] {
        assert l[0] == LowerChar(t[0]) && l[|l| - 1] == LowerChar(t[|t| - 1]);
      }
    }
    TrimmedIsFixed(l);
    ToLowerIdempotent(t);
  }
}
